=== FILE: README.md ===
# Thinking-token processing, modelled in Dafny

This project models the reasoning-token ("thinking token") processor of
Open WebUI's thinking-tokens demo, `ThinkingTokenProcessor`, together with the
`removeDetails` filter loop and the extraction edge cases of its test suite.

- **Detection** (`detect_reasoning_tags`). The processor walks a fixed table
  of eight start/end tag pairs in order. For each pair it finds the leftmost,
  non-overlapping `start (.*?) end` matches, with DOTALL and IGNORECASE. Each
  match whose inner text is not blank after `strip()` becomes a block. A block
  has the start tag, the end tag, the stripped content, a duration of 1 and the
  whole matched text.
- **Processing** (`process_content`). Every block's matched text is removed
  with `str.replace`. Runs `\n\s*\n` are collapsed to one blank line, and the
  result is stripped. The durations are summed.
- **Rendering** (`generate_html_output`). Each block becomes a
  `<details type="reasoning" done="true" duration="d">` wrapper. The wrapper
  holds a `<summary>` line and the content lines quoted with `> `. The
  wrappers and the non-empty main content are joined with blank lines.
- **Filtering** (the test suite's `removeDetails` loop). For each listed type,
  one `re.sub` pass deletes `<details\s+type="T"[^>]*>.*?</details>`.

The modules follow that structure.

- `Text` holds Python's character classes, literal search and `str.strip`.
  Whitespace follows `str.isspace`, line boundaries follow
  `str.splitlines`, and ignoring case folds ASCII letters.
- `Patterns` holds the regular expressions the code builds, as a `Pattern`
  datatype with `MatchAt`, the match at one position. It also holds the
  driving loops of `re.finditer` (`Scan`/`FindAll`) and of
  `re.sub`/`str.replace` (`Replace`/`Sub`). The patterns here are all built
  from literals, so each match is a small deterministic search:
  - a lazy `(.*?)` stops at the first end tag after the start tag;
  - `[^>]*>` stops at the first `>`;
  - the greedy `\s*` of `\n\s*\n` gives back characters up to the last newline
    of the whitespace run.

  The greedy `\s+` before `type="T"` is modelled without backtracking. This is
  exact, because the attribute starts with a non-space character, so only the
  whole run can precede it.
- `ReasoningTags` models detection. `DetectWith` detects over any tag
  table, and `DetectReasoningTags` applies it to the processor's table.
- `TagProperties` holds consequences of detection: the case-folding
  duplicate in the table, single sections, unclosed tags and the test
  suite's edge cases.
- `Processing` models `process_content`. As with detection, `ProcessWith`
  takes the tag table as a parameter, and `ProcessContent` fixes it to the
  processor's table. The properties are proved for every valid table, so
  they hold in particular for the processor's own.
- `Html` models `generate_html_output`, with `str(int)`, `splitlines`,
  `join` and `split`.
- `DetailsFilter` models the `removeDetails` loop.

The processor works on one whole string at a time. A start tag that has no
end tag after it yields no block (see `TagProperties.UnclosedCase`). The
details filter loop is not idempotent: one pass can leave a wrapper that a
second pass removes (see Findings).

## Model

| member | source | states |
|---|---|---|
| ReasoningTags.DefaultTags | thinking_tokens_demo.py:21-30 | The table has eight valid pairs. It includes `<think>`, `<thinking>` and `<reasoning>`. Entries 4 and 5 (`<thought>`, `<Thought>`) differ but are equal up to case. |
| ReasoningTags.TaggedMatchIff | thinking_tokens_demo.py:43-44 | `start (.*?) end` matches from `lo` to `hi` exactly when `[lo, hi)` is the start tag, a body without the end tag, then the end tag. Tags compare case-insensitively when IGNORECASE is set. |
| Patterns.ScanLeftmost | thinking_tokens_demo.py:44-46 | The `re.finditer` scan returns spans that are ordered, disjoint matches at their own starts. No position outside them starts a match. |
| Patterns.LeftmostUnique | thinking_tokens_demo.py:44-46 | Only one span list is ordered, disjoint, made of matches and skips no match, and that list is the scan's result. |
| Patterns.FindAllLeftmost | thinking_tokens_demo.py:44 | `re.finditer` on any pattern gives the leftmost non-overlapping matches. |
| ReasoningTags.TagScanIsFindAll | thinking_tokens_demo.py:43-46 | The reduced scan equals `re.finditer` on the tag pattern. The reduced scan finds the next start tag and the first end tag after it, stops if either is missing and otherwise resumes after the region. |
| ReasoningTags.TagScanMatches | thinking_tokens_demo.py:43-46 | Every region the scan records is a shortest `start body end` region. |
| TagProperties.FoldEqualScan | thinking_tokens_demo.py:43-44 | Ignoring case, two pairs whose tags are equal up to case scan to the same regions. |
| ReasoningTags.KeptSpans | thinking_tokens_demo.py:47-49 | The kept spans are exactly those spans whose stripped body is not empty. |
| TagProperties.PairRegionsAreKeptMatches | thinking_tokens_demo.py:44-49 | A region of a pair is kept exactly when it is a `re.finditer` match whose stripped body is not empty. |
| ReasoningTags.LocateMembers | thinking_tokens_demo.py:41-49 | A (pair, region) is located exactly when the pair is in the table and the region is one of that pair's matches whose stripped body is not empty. |
| ReasoningTags.DetectWith | thinking_tokens_demo.py:35-61 | There is one block per located region. Every block has non-empty content and duration 1. |
| ReasoningTags.DetectReasoningTags | thinking_tokens_demo.py:35-61 | The default table, matched ignoring case: one block per located region, each with non-empty content and duration 1. `ReasoningTags.LocateMembers`, `ReasoningTags.DetectedBlock` and `ReasoningTags.LocateOrdered` give which regions and in what order. |
| ReasoningTags.DetectedBlock | thinking_tokens_demo.py:46-59 | Block `i` comes from a located region of pair `k`. Its tags are that pair's tags and its content is the stripped, non-empty body. Its original match is the region's text, which starts with the start tag and ends with the end tag, exactly so when case is respected. The body holds no end tag and the duration is 1. |
| ReasoningTags.RegionShape | thinking_tokens_demo.py:47-58 | A matched region's text is the start tag, the body and the end tag, and the body holds no end tag. Matched case-sensitively, the text is literally their concatenation. |
| ReasoningTags.LocateOrdered | thinking_tokens_demo.py:41-61 | Blocks come out grouped by their pair's position in the table. Within one pair they follow the text order of their regions. |
| TagProperties.ThoughtDetectedTwice | thinking_tokens_demo.py:26-27 | With the default table and ignoring case, a region is detected for `<thought>` exactly when it is detected for `<Thought>`. One region therefore gives two blocks. |
| TagProperties.OneRegion | thinking_tokens_demo.py:43-46 | Suppose a text holds a start tag, a body without the end tag and the end tag, with no start tag before or after that section. Then it yields exactly that one region, and the region's body is the body. |
| TagProperties.BlankRegionNoBlock | thinking_tokens_demo.py:47-49 | A text whose only region has a blank body yields no block. |
| TagProperties.EmptySectionCase | test_thinking_tokens.py:117-122 | `<thinking></thinking>` gives one match, and its body is empty. |
| TagProperties.BlankSectionCase | test_thinking_tokens.py:124-128 | `<thinking>`, whitespace, `</thinking>` gives one match. Its body is the whitespace, which strips to "", so no block is made. |
| TagProperties.UnclosedCase | test_thinking_tokens.py:130-133 | A text without `/`, such as `<thinking>Content without closing tag`, gives no match. |
| Text.Strip | thinking_tokens_demo.py:47 | `strip()` returns a text that neither starts nor ends with whitespace. The result is empty exactly when the input is all whitespace. |
| Text.StripUnique | thinking_tokens_demo.py:47 | Take whitespace, then a text that neither starts nor ends with whitespace, then whitespace. `strip()` returns the middle text. |
| Text.StripKeepsNonSpace | thinking_tokens_demo.py:75 | `strip()` keeps every non-whitespace character, in order. |
| Patterns.ReplaceIsSplice | thinking_tokens_demo.py:72-75 | The substitution scan keeps the text between the `re.finditer` spans and puts the replacement in place of each span. |
| Patterns.DeleteUnchangedIff | test_thinking_tokens.py:241 | Deleting every match leaves the text unchanged exactly when no position starts a match. Otherwise the text gets shorter. |
| Patterns.LastNewlineSpec | thinking_tokens_demo.py:75 | The newline at which `\s*` stops is the last newline of the range. None is found only when the range has no newline. |
| Patterns.BlankLinesSpace | thinking_tokens_demo.py:75 | Every run that `\n\s*\n` matches is all whitespace. |
| Processing.RemoveAll | thinking_tokens_demo.py:72 | `str.replace(needle, "")`. Its properties are stated by `Processing.RemoveAllUnchanged` and `Processing.RemoveAllLength`. |
| Processing.RemoveAllUnchanged | thinking_tokens_demo.py:72 | `str.replace(needle, "")` returns the text unchanged exactly when the needle is empty or occurs nowhere. Otherwise it shortens the text. |
| Processing.RemoveAllLength | thinking_tokens_demo.py:72 | `str.replace` shortens the text by the needle's length once per leftmost non-overlapping occurrence. |
| Processing.RemoveMatches | thinking_tokens_demo.py:70-72 | The removal loop never lengthens the text. It returns the text unchanged exactly when no block's matched text occurs in it. |
| Processing.Collapse | thinking_tokens_demo.py:75 | `re.sub(r'\n\s*\n', '\n\n', …)`. `Processing.CollapseKeepsText` states that it keeps the non-whitespace text, and the lemmas below state what it does to whitespace. |
| Processing.CollapseNoRunUnchanged | thinking_tokens_demo.py:75 | A text in which no position starts a `\n\s*\n` match is left unchanged. |
| Processing.CollapseRunsAreTwo | thinking_tokens_demo.py:75 | In the collapsed text, every `\n\s*\n` match is exactly the two characters `\n\n`. |
| Processing.CollapseIdempotent | thinking_tokens_demo.py:75 | Collapsing a collapsed text changes nothing. |
| Processing.CollapseUnchangedIff | thinking_tokens_demo.py:75 | Collapsing leaves a text unchanged exactly when no two of its newlines are separated by a non-empty run of whitespace. |
| Processing.CollapseKeepsText | thinking_tokens_demo.py:75 | Collapsing blank-line runs keeps every non-whitespace character, in order. |
| Processing.TotalDuration | thinking_tokens_demo.py:80 | The sum equals the block count when every duration is 1, and is non-negative when every duration is. |
| Processing.ProcessWith | thinking_tokens_demo.py:63-81 | The blocks are the detected blocks and the total time is their number. The main content neither starts nor ends with whitespace. It has the same non-whitespace characters as the text with every matched block removed. |
| Processing.ProcessContent | thinking_tokens_demo.py:63-81 | With the processor's own table: the blocks are the detected blocks, the total time is their number, the main content has stripped ends and the same non-whitespace characters as the text with every matched block removed. |
| Processing.DetectedTextRemoved | thinking_tokens_demo.py:67-72 | For any tag table, whenever a block is detected the removal loop shortens the text. |
| Processing.NoTagsMainContent | thinking_tokens_demo.py:63-81 | For any tag table, without blocks the main content is the input collapsed and stripped. It keeps all of the input's non-whitespace characters, and the total time is 0. |
| Html.NatStr | thinking_tokens_demo.py:100 | `str(n)` writes non-empty decimal digits without a leading zero, and they read back as `n`. |
| Html.NatStrOfValue | thinking_tokens_demo.py:100 | Every canonical digit string is what `str` writes for its value, so `str` and `int` are inverse. |
| Html.IntStr | thinking_tokens_demo.py:100-101 | `int` reads `str(d)` back as `d`, for negative `d` too. |
| Html.SplitJoin | thinking_tokens_demo.py:95-97 | `"\n".join` and `splitlines` are inverse on lines without boundaries whose last line is not empty. |
| Html.QuoteLine | thinking_tokens_demo.py:96 | A quoted line starts with `>`. It equals the line exactly when the line already starts with `>`, and otherwise it is `> ` plus the line. |
| Html.FormatReasoningLines | thinking_tokens_demo.py:94-98 | The formatted body's lines are the content's lines, each quoted. |
| Html.SummaryPlural | thinking_tokens_demo.py:101 | The summary starts with `Thought for ` and ends with `s` exactly when the duration is not 1. For duration 1 it is `Thought for 1 second`. The number between `Thought for ` and ` second(s)` reads back as the duration. |
| Html.Wrapper | thinking_tokens_demo.py:100-103 | `html_block` of one block. `Html.WrapperLines` gives its lines and `Html.WrapperSeparable` shows it holds no blank line. |
| Html.WrapperLines | thinking_tokens_demo.py:100-103 | A wrapper is the opening line, the summary line, the quoted content lines and `</details>`, joined by newlines. `splitlines` gives exactly those lines back. |
| Html.WrapperSeparable | thinking_tokens_demo.py:100-103 | A wrapper holds no blank line and does not end with a newline. |
| Html.HtmlParts | thinking_tokens_demo.py:87-109 | There is one part per block, plus one more when the main content is not empty. Part `i` is the wrapper of block `i`, and a non-empty main content is the last part. |
| Html.SplitJoinParts | thinking_tokens_demo.py:111 | Join parts with blank lines and split again at blank lines. When no part but the last holds a blank line or ends with a newline, this gives back those parts, then the pieces of the last. |
| Html.GenerateHtml | thinking_tokens_demo.py:83-111 | `generate_html_output`: the parts joined with blank lines, and the empty string when there are no blocks and no main content. `Html.SplitPage` states that, when every block's content is non-empty, splitting any other page at blank lines gives back every wrapper in block order, then the pieces of the main content. |
| Html.SplitPage | thinking_tokens_demo.py:83-111 | For a non-empty page whose blocks all have non-empty content, splitting the page at blank lines gives back every wrapper in block order, then the pieces of the main content. |
| DetailsFilter.RemoveDetails | test_thinking_tokens.py:236-241 | The loop never lengthens the text. It leaves the text unchanged exactly when no listed type has a wrapper in it. |
| DetailsFilter.RemoveType | test_thinking_tokens.py:240-241 | One pass never lengthens the text and leaves it unchanged exactly when no wrapper of the type matches in it. |
| DetailsFilter.RemovedRegions | test_thinking_tokens.py:240-241 | One pass deletes exactly the leftmost non-overlapping wrappers of the type and keeps the text between them. |
| DetailsFilter.OutsideKept | test_thinking_tokens.py:247-250 | A piece of text that overlaps no deleted wrapper still occurs in the output. |
| DetailsFilter.WrapperTextMatch | test_thinking_tokens.py:240 | `<details type="T">body</details>` with a body without `<` is matched whole by the type's pattern. |
| DetailsFilter.TwoTypesRemoved | test_thinking_tokens.py:236-250 | Take the test's layout: text, a wrapper of the first type, text, a wrapper of the second type, text. If the plain texts hold no `<` and no wrapper of the first type follows the first wrapper, the loop leaves exactly the three plain texts, in order. |
| DetailsFilter.OnePassLeavesWrapper | test_thinking_tokens.py:239-244 | Place a wrapper inside the `<details` opener of another. One pass leaves a whole wrapper of the same type, so the output still holds `<details type="T"` and a second pass changes it. |
| DetailsFilter.RemoveDetailsFully | test_thinking_tokens.py:239-244 | The loop repeated until nothing changes never lengthens the text. It leaves no wrapper of any listed type, is a fixed point of the loop, and is the identity on text with no such wrapper. |

## Left out

- The wall-clock stamps `started_at` and `ended_at` are left out, because they read `time.time()`. The constant `"type": "reasoning"` field of a block is implied rather than stored.
- `demo_examples`, the script entry point, `json` output and printing are left out. They are I/O around the core.
- The backend `DEFAULT_REASONING_TAGS` import of the test suite is left out, because that code is not part of this model. The fallback table is identical to `ReasoningTags.DefaultTags`.
- The other test cases are left out as concrete instances. Block serialization, the tag-presence checks and the international-content test assert on literal values and call no code of the core. The remaining ones run `re.findall` with one tag pair on fixed texts (`test_reasoning_with_special_characters` loops over a short list of them); the general scan they exercise is stated by `ReasoningTags.TagScanIsFindAll` and `TagProperties.OneRegion`, but their particular texts are not instantiated.
- `re.IGNORECASE` is modelled as ASCII case folding. Python folds all of Unicode. Every cased letter in the tags and in the `details`/`type` pieces is ASCII (`◁think▷` holds the non-letters U+25C1 and U+25B7), but a non-ASCII letter in the text could match a tag letter under full Unicode folding.
- Texts are sequences of Dafny `char`, which cannot hold a lone surrogate code point. A Python `str` can, so such texts are outside the model's input domain.
- `Processing.ProcessWith` and `Processing.ProcessContent`: the contracts do not give the main content's exact whitespace layout. It gives its non-whitespace characters and its stripped ends, and `Processing.NoTagsMainContent` gives the exact text when nothing is detected.
- `TagProperties.UnclosedCase`: this covers every text without `/`, which includes the test's string. It is not stated for that string alone.
- `TagProperties.BlankSectionCase`: this covers every all-whitespace body, which includes the test's `"   \n   "`.
- `DetailsFilter.TwoTypesRemoved`: this covers the test's layout when the plain texts between the wrappers hold no `<`, as the test's texts do. Plain text holding `<` is not covered.
- `DetailsFilter.OutsideKept`: this is stated for one pass, `RemoveType`. The output of the whole two-type loop in the test's layout is stated by `DetailsFilter.TwoTypesRemoved`.
- `DetailsFilter.RemoveDetails`: type names are matched as literal text. The filter puts them into the regex source unescaped, so a name holding a regex metacharacter (such as `a.b`) matches more in Python than in the model. The names the filter is used with, `reasoning` and `code_interpreter`, hold none, and for them both readings agree.
- `DetailsFilter.OnePassLeavesWrapper`: this is stated for wrappers with one space after `<details` and a body without `<`. The pattern itself accepts any whitespace run and any body.

## Findings

| source | as written | input that shows it | evidently intended | confidence | as-written member | corrected member |
|---|---|---|---|---|---|---|
| test_thinking_tokens.py:239-244 | one `re.sub` pass per listed type, and the test then asserts that no `<details type="reasoning"` remains | `<det` + `<details type="reasoning">a</details>` + `ails type="reasoning">b</details>` with types `["reasoning"]`. The pass deletes the inner wrapper, and the joined remainder is `<details type="reasoning">b</details>` | the filtered text holds no wrapper of a listed type, and filtering again is a no-op | medium; not executed | DetailsFilter.OnePassLeavesWrapper | DetailsFilter.RemoveDetailsFully |

=== FILE: details_filter.dfy ===
/** The `removeDetails` filter of the test suite: for each listed type in
    turn, every `<details type="T" ...> ... </details>` wrapper is deleted
    with `re.sub(r'<details\s+type="T"[^>]*>.*?</details>', '', s,
    flags=DOTALL | IGNORECASE)`. */
module DetailsFilter {
  import opened Text
  import opened Patterns

  /** One pass of the loop: delete the wrappers of type `t`. */
  function RemoveType(s: string, t: string): (r: string)
    ensures |r| <= |s|
    ensures r == s <==> NoMatch(Details(t), s)
  {
    DeleteUnchangedIff(Details(t), s);
    Sub(Details(t), s, [], 0)
  }

  /** The loop over `types_to_remove`, in list order. It leaves the text as
      it is exactly when no listed type has a wrapper in it, and otherwise
      shortens it. */
  function RemoveDetails(s: string, types: seq<string>): (r: string)
    ensures |r| <= |s|
    ensures r != s ==> |r| < |s|
    ensures r == s <==> forall t :: t in types ==> NoMatch(Details(t), s)
    decreases |types|
  {
    if types == [] then s
    else
      DeleteUnchangedIff(Details(types[0]), s);
      assert forall t :: t in types <==> t == types[0] || t in types[1..];
      RemoveDetails(RemoveType(s, types[0]), types[1..])
  }

  /** What one pass deletes: the leftmost non-overlapping wrappers of the
      type, so that every wrapper that starts in the input starts inside a
      deleted region, and the text between deleted regions is kept in order. */
  lemma RemovedRegions(s: string, t: string)
    ensures var spans := FindAll(Details(t), s, 0);
            && Leftmost(Matches(Details(t), s), |s|, 0, spans)
            && RemoveType(s, t) == Splice(s, spans, [], 0)
  {
    FindAllLeftmost(Details(t), s, 0);
    SubIsSplice(Details(t), s, [], 0);
  }

  /** Text outside every deleted wrapper is still in the output. */
  lemma OutsideKept(s: string, t: string, i: nat, j: nat)
    requires i <= j <= |s|
    requires forall x :: x in FindAll(Details(t), s, 0) ==> x.hi <= i || j <= x.lo
    ensures exists k: nat :: LitAt(RemoveType(s, t), k, s[i..j], false)
  {
    var spans := FindAll(Details(t), s, 0);
    SubIsSplice(Details(t), s, [], 0);
    var r := RemoveType(s, t);
    assert r == Splice(s, spans, [], 0);
    SpliceKeepsGap(s, spans, [], 0, i, j);
    var k: nat :| LitAt(Splice(s, spans, [], 0), k, s[i..j], false);
    assert LitAt(r, k, s[i..j], false);
  }

  // ---------------------------------------------------------------------
  // Where a wrapper match is decided: only the text from its start on, and
  // only up to its closing tag. These facts hold for any wrapper pattern, so
  // they are stated over its pieces.

  /** A match of a wrapper pattern in the second part of `x + y` is the
      match in `y`, shifted. */
  lemma MatchShift(p: Pattern, x: string, y: string, q: nat)
    requires p.Wrapper?
    ensures MatchAt(p, x + y, |x| + q) == Shift(|x|, MatchAt(p, y, q))
  {
    WrapperShift(p.open, p.attr, p.gt, p.close, x, y, q, |x| + q);
  }

  lemma WrapperShift(open: string, attr: string, gt: string, close: string, x: string, y: string, q: nat, q': nat)
    requires q' == |x| + q
    ensures WrapperEnd(open, attr, gt, close, x + y, q') == Shift(|x|, WrapperEnd(open, attr, gt, close, y, q))
  {
    LitAtShift(x, y, q, open, true);
    if LitAt(y, q, open, true) {
      AttrEndShift(attr, gt, close, x, y, q + |open|, q' + |open|);
      WrapperEndOpen(open, attr, gt, close, y, q);
      WrapperEndOpen(open, attr, gt, close, x + y, q');
    } else {
      WrapperEndClosed(open, attr, gt, close, y, q);
      WrapperEndClosed(open, attr, gt, close, x + y, q');
    }
  }

  /** `WrapperEnd` where the opener is at `q`: the rest is matched after it. */
  lemma WrapperEndOpen(open: string, attr: string, gt: string, close: string, s: string, q: nat)
    requires LitAt(s, q, open, true)
    ensures q + |open| <= |s|
    ensures WrapperEnd(open, attr, gt, close, s, q) == AttrEnd(attr, gt, close, s, q + |open|)
  {
    LitAtLength(s, q, open, true);
  }

  /** `WrapperEnd` where the opener is not at `q`. */
  lemma WrapperEndClosed(open: string, attr: string, gt: string, close: string, s: string, q: nat)
    requires !LitAt(s, q, open, true)
    ensures WrapperEnd(open, attr, gt, close, s, q) == None
  {
  }

  lemma AttrEndShift(attr: string, gt: string, close: string, x: string, y: string, b: nat, b': nat)
    requires b <= |y| && b' == |x| + b
    ensures AttrEnd(attr, gt, close, x + y, b') == Shift(|x|, AttrEnd(attr, gt, close, y, b))
  {
    var a := SpaceRunEnd(y, b);
    SpaceRunShift(x, y, b);
    LitAtShift(x, y, a, attr, true);
    if a != b && LitAt(y, a, attr, true) {
      AttrShiftFound(attr, gt, close, x, y, b, b', a);
    } else {
      AttrEndMissing(attr, gt, close, y, b, a);
      AttrEndMissing(attr, gt, close, x + y, b', |x| + a);
    }
  }

  /** `AttrEndShift` where the attribute follows the whitespace run. */
  lemma AttrShiftFound(attr: string, gt: string, close: string, x: string, y: string, b: nat, b': nat, a: nat)
    requires b <= |y| && b' == |x| + b
    requires a == SpaceRunEnd(y, b) && |x| + a == SpaceRunEnd(x + y, b')
    requires a != b && LitAt(y, a, attr, true) && LitAt(x + y, |x| + a, attr, true)
    ensures AttrEnd(attr, gt, close, x + y, b') == Shift(|x|, AttrEnd(attr, gt, close, y, b))
  {
    AttrEndFound(attr, gt, close, y, b, a);
    AttrEndFound(attr, gt, close, x + y, b', |x| + a);
    TagEndShift(gt, close, x, y, a + |attr|, |x| + a + |attr|);
  }

  /** `AttrEnd` where the whitespace run after the opener ends at `a`, in
      front of the attribute. */
  lemma AttrEndFound(attr: string, gt: string, close: string, s: string, b: nat, a: nat)
    requires b <= |s| && a == SpaceRunEnd(s, b) && a != b && LitAt(s, a, attr, true)
    ensures AttrEnd(attr, gt, close, s, b) == TagEnd(gt, close, s, a + |attr|)
  {
  }

  /** `AttrEnd` where the whitespace run after the opener is empty or is not
      followed by the attribute. */
  lemma AttrEndMissing(attr: string, gt: string, close: string, s: string, b: nat, a: nat)
    requires b <= |s| && a == SpaceRunEnd(s, b) && (a == b || !LitAt(s, a, attr, true))
    ensures AttrEnd(attr, gt, close, s, b) == None
  {
  }

  lemma TagEndShift(gt: string, close: string, x: string, y: string, c: nat, c': nat)
    requires c' == |x| + c
    ensures TagEnd(gt, close, x + y, c') == Shift(|x|, TagEnd(gt, close, y, c))
  {
    var g := FirstAt(y, c, gt, false);
    FirstAtShift(x, y, c, gt, false);
    if g.Some? {
      var h := g.value + 1;
      var k := FirstAt(y, h, close, true);
      FirstAtShift(x, y, h, close, true);
      TagEndAt(gt, close, y, c, g.value, k);
      TagEndAt(gt, close, x + y, c', |x| + g.value, Shift(|x|, k));
    } else {
      assert TagEnd(gt, close, y, c) == None;
      assert TagEnd(gt, close, x + y, c') == None;
    }
  }

  /** `TagEnd` once the first `gt` and the first `close` after it are known. */
  lemma TagEndAt(gt: string, close: string, s: string, c: nat, g: nat, k: Option<nat>)
    requires FirstAt(s, c, gt, false) == Some(g) && FirstAt(s, g + 1, close, true) == k
    ensures TagEnd(gt, close, s, c) == if k.Some? then Some(k.value + |close|) else None
  {
  }

  /** A match of a wrapper pattern that lies inside `y` is the same match in `y + z`. */
  lemma MatchPrefix(p: Pattern, y: string, z: string, q: nat)
    requires p.Wrapper? && MatchAt(p, y, q).Some?
    ensures MatchAt(p, y + z, q) == MatchAt(p, y, q)
  {
    WrapperPrefix(p.open, p.attr, p.gt, p.close, y, z, q);
  }

  lemma WrapperPrefix(open: string, attr: string, gt: string, close: string, y: string, z: string, q: nat)
    requires WrapperEnd(open, attr, gt, close, y, q).Some?
    ensures WrapperEnd(open, attr, gt, close, y + z, q) == WrapperEnd(open, attr, gt, close, y, q)
  {
    LitAtPrefix(y, z, q, open, true);
    AttrEndPrefix(attr, gt, close, y, z, q + |open|);
  }

  lemma AttrEndPrefix(attr: string, gt: string, close: string, y: string, z: string, b: nat)
    requires b <= |y| && AttrEnd(attr, gt, close, y, b).Some?
    ensures AttrEnd(attr, gt, close, y + z, b) == AttrEnd(attr, gt, close, y, b)
  {
    var a := SpaceRunEnd(y, b);
    SpaceRunPrefix(y, z, b);
    LitAtPrefix(y, z, a, attr, true);
    TagEndPrefix(gt, close, y, z, a + |attr|);
  }

  lemma TagEndPrefix(gt: string, close: string, y: string, z: string, c: nat)
    requires TagEnd(gt, close, y, c).Some?
    ensures TagEnd(gt, close, y + z, c) == TagEnd(gt, close, y, c)
  {
    FirstAtPrefix(y, z, c, gt, false);
    var g := FirstAt(y, c, gt, false).value;
    FirstAtPrefix(y, z, g + 1, close, true);
  }

  /** A wrapper that is a whole piece `w` matches the same way inside any text. */
  lemma MatchInContext(p: Pattern, x: string, w: string, z: string)
    requires p.Wrapper? && MatchAt(p, w, 0) == Some(|w|)
    ensures MatchAt(p, x + w + z, |x|) == Some(|x| + |w|)
  {
    MatchPrefix(p, w, z, 0);
    assert x + w + z == x + (w + z);
    MatchShift(p, x, w + z, 0);
  }

  /** No wrapper starts at `q` when the text differs from the opener at its `k`-th character. */
  lemma NoOpenAt(p: Pattern, s: string, q: nat, k: nat)
    requires p.Wrapper? && k < |p.open| && q + k < |s| && !SameChar(s[q + k], p.open[k], true)
    ensures MatchAt(p, s, q).None?
  {
    LitAtIff(s, q, p.open, true);
  }

  /** The shape of the details pattern that the lemmas below rely on: the
      opener and the closing tag start with `<` and hold no other, differ
      in their second character, the attribute starts with a non-space
      character, and `gt` is one character other than `<`. */
  predicate Shaped(p: Pattern) {
    && p.Wrapper?
    && |p.open| >= 2 && p.open[0] == '<' && '<' !in p.open[1..]
    && |p.close| >= 2 && p.close[0] == '<' && '<' !in p.close[1..]
    && !SameChar(p.close[1], p.open[1], true)
    && p.attr != [] && !IsSpace(p.attr[0])
    && |p.gt| == 1 && p.gt[0] != '<'
  }

  /** The details pattern of every type has that shape. */
  lemma DetailsShaped(t: string)
    ensures Shaped(Details(t))
    ensures '<' !in t ==> '<' !in Details(t).attr
  {
    OpenPieces();
    ClosePieces();
    AttrPieces(t);
  }

  lemma OpenPieces()
    ensures |DetailsOpen| == 8 && DetailsOpen[0] == '<' && DetailsOpen[1] == 'd' && '<' !in DetailsOpen[1..]
  {
    assert DetailsOpen[1..] == "details";
  }

  lemma ClosePieces()
    ensures |DetailsClose| == 10 && DetailsClose[0] == '<' && DetailsClose[1] == '/' && '<' !in DetailsClose[1..]
  {
    assert DetailsClose[1..] == "/details>";
  }

  lemma AttrPieces(t: string)
    ensures TypeAttr(t) != [] && TypeAttr(t)[0] == 't'
    ensures '<' !in t ==> '<' !in TypeAttr(t)
  {
    if '<' !in t {
      assert TypeAttr(t) == "type=\"" + t + "\"";
    }
  }

  /** A text without `<` followed by a closing tag holds no wrapper. */
  lemma NoMatchBeforeClose(p: Pattern, x: string)
    requires Shaped(p) && '<' !in x
    ensures NoMatch(p, x + p.close)
  {
    var s := x + p.close;
    forall q: nat | q < |s| ensures MatchAt(p, s, q).None? {
      if q < |x| {
        assert s[q] == x[q];
        NoOpenAt(p, s, q, 0);
      } else if q == |x| {
        assert s[q + 1] == p.close[1];
        NoOpenAt(p, s, q, 1);
      } else {
        assert s[q] == p.close[q - |x|] == p.close[1..][q - |x| - 1];
        NoOpenAt(p, s, q, 0);
      }
    }
  }

  /** One pass over `a + w + c`, where `w` is a wrapper, no wrapper starts
      in `a` and none lies in `c`, deletes exactly `w`. */
  lemma RemoveOneWrapper(p: Pattern, a: string, w: string, c: string)
    requires p.Wrapper?
    requires forall q :: 0 <= q < |a| ==> MatchAt(p, a + w + c, q).None?
    requires MatchAt(p, w, 0) == Some(|w|)
    requires NoMatch(p, c)
    ensures Sub(p, a + w + c, [], 0) == a + c
  {
    var s := a + w + c;
    OneWrapperFound(p, a, w, c);
    SubIsSplice(p, s, [], 0);
    SpliceOne(s, |a|, |a| + |w|);
    assert s[..|a|] == a && s[|a| + |w|..] == c;
  }

  /** `re.finditer` over `a + w + c` finds `w` alone. */
  lemma OneWrapperFound(p: Pattern, a: string, w: string, c: string)
    requires p.Wrapper?
    requires forall q :: 0 <= q < |a| ==> MatchAt(p, a + w + c, q).None?
    requires MatchAt(p, w, 0) == Some(|w|)
    requires NoMatch(p, c)
    ensures FindAll(p, a + w + c, 0) == [Span(|a|, |a| + |w|)]
  {
    var s := a + w + c;
    var e := |a| + |w|;
    FindAllSkip(p, s, 0, |a|);
    MatchInContext(p, a, w, c);
    FindAllTakeOne(p, s, |a|, e);
    NoMatchAfter(p, a + w, c);
    FindAllSkip(p, s, e, |s|);
    assert FindAll(p, s, |s|) == [];
  }

  /** A text with no wrapper in it holds none after any prefix. */
  lemma NoMatchAfter(p: Pattern, x: string, c: string)
    requires p.Wrapper? && NoMatch(p, c)
    ensures forall q :: |x| <= q < |x + c| ==> MatchAt(p, x + c, q).None?
  {
    forall q | |x| <= q < |x + c| ensures MatchAt(p, x + c, q).None? {
      MatchShift(p, x, c, q - |x|);
    }
  }

  /** Deleting one region. */
  lemma SpliceOne(s: string, lo: nat, hi: nat)
    requires lo < hi <= |s|
    ensures Chain([Span(lo, hi)], 0, |s|)
    ensures Splice(s, [Span(lo, hi)], [], 0) == s[..lo] + s[hi..]
  {
    assert [Span(lo, hi)][1..] == [];
  }

  /** Two passes over text, a wrapper of `p1`, text, a wrapper of `p2`,
      text: when the plain texts hold no `<` and no wrapper of `p1` lies
      after the first, exactly the three plain texts are left. */
  lemma TwoPassesRemoved(p1: Pattern, p2: Pattern, a: string, w1: string, b: string, w2: string, c: string)
    requires p1.Wrapper? && p1.open != [] && p1.open[0] == '<'
    requires p2.Wrapper? && p2.open != [] && p2.open[0] == '<'
    requires '<' !in a && '<' !in b && '<' !in c
    requires MatchAt(p1, w1, 0) == Some(|w1|)
    requires MatchAt(p2, w2, 0) == Some(|w2|)
    requires NoMatch(p1, w2 + c)
    ensures Sub(p2, Sub(p1, a + w1 + b + w2 + c, [], 0), [], 0) == a + b + c
  {
    var c1 := b + (w2 + c);
    PlainThenNoMatch(p1, b, w2 + c);
    PlainHeadNoMatch(p1, a, w1, c1);
    RemoveOneWrapper(p1, a, w1, c1);
    assert a + w1 + b + w2 + c == a + w1 + c1;
    var ab := a + b;
    assert a + c1 == ab + w2 + c;
    PlainNoMatch(p2, c);
    PlainHeadNoMatch(p2, ab, w2, c);
    RemoveOneWrapper(p2, ab, w2, c);
  }

  /** No wrapper starts in a text without `<`. */
  lemma PlainHeadNoMatch(p: Pattern, a: string, w: string, c: string)
    requires p.Wrapper? && p.open != [] && p.open[0] == '<' && '<' !in a
    ensures forall q :: 0 <= q < |a| ==> MatchAt(p, a + w + c, q).None?
  {
    forall q | 0 <= q < |a| ensures MatchAt(p, a + w + c, q).None? {
      assert (a + w + c)[q] == a[q];
      NoOpenAt(p, a + w + c, q, 0);
    }
  }

  /** A text without `<` holds no wrapper. */
  lemma PlainNoMatch(p: Pattern, c: string)
    requires p.Wrapper? && p.open != [] && p.open[0] == '<' && '<' !in c
    ensures NoMatch(p, c)
  {
    forall q: nat | q < |c| ensures MatchAt(p, c, q).None? {
      NoOpenAt(p, c, q, 0);
    }
  }

  /** A text without `<` in front of one without wrappers adds none. */
  lemma PlainThenNoMatch(p: Pattern, b: string, y: string)
    requires p.Wrapper? && p.open != [] && p.open[0] == '<' && '<' !in b && NoMatch(p, y)
    ensures NoMatch(p, b + y)
  {
    PlainHeadNoMatch(p, b, y, []);
    assert b + y + [] == b + y;
    NoMatchAfter(p, b, y);
  }

  /** The test's layout: text, a wrapper of the first listed type, text, a
      wrapper of the second, text. When the plain texts hold no `<` and no
      wrapper of the first type lies after the first wrapper, the loop
      leaves exactly the three plain texts, in order. */
  lemma TwoTypesRemoved(a: string, w1: string, b: string, w2: string, c: string, t1: string, t2: string)
    requires '<' !in a && '<' !in b && '<' !in c
    requires MatchAt(Details(t1), w1, 0) == Some(|w1|)
    requires MatchAt(Details(t2), w2, 0) == Some(|w2|)
    requires NoMatch(Details(t1), w2 + c)
    ensures RemoveDetails(a + w1 + b + w2 + c, [t1, t2]) == a + b + c
  {
    DetailsShaped(t1);
    DetailsShaped(t2);
    TwoPassesRemoved(Details(t1), Details(t2), a, w1, b, w2, c);
    var s := a + w1 + b + w2 + c;
    assert [t1, t2][1..] == [t2];
    assert RemoveDetails(s, [t1, t2]) == RemoveDetails(RemoveType(s, t1), [t2]);
    assert RemoveDetails(RemoveType(s, t1), [t2]) == RemoveDetails(RemoveType(RemoveType(s, t1), t2), []);
  }

  // ---------------------------------------------------------------------
  // One pass per type is not enough: deleting a wrapper can join the text
  // around it into a new wrapper of the same type.

  /** The wrapper `open attr gt body close`, with one space after the opener. */
  function WrapperText(p: Pattern, body: string): string
    requires p.Wrapper?
  {
    p.open + " " + p.attr + p.gt + body + p.close
  }

  /** `<details type="t">body</details>`. */
  function DetailsBlock(t: string, body: string): string {
    WrapperText(Details(t), body)
  }

  /** A wrapper whose body holds no `<` matches the pattern as a whole. */
  lemma WrapperTextMatch(p: Pattern, body: string)
    requires Shaped(p) && '<' !in body
    ensures MatchAt(p, WrapperText(p, body), 0) == Some(|WrapperText(p, body)|)
  {
    var z := p.gt + body + p.close;
    var y := " " + p.attr + z;
    assert WrapperText(p, body) == p.open + y;
    OpenerThen(p, y);
    SpaceThenAttr(p.attr, p.gt, p.close, z);
    ClosingTag(p, body);
  }

  /** A text that starts with the opener is matched from just after it. */
  lemma OpenerThen(p: Pattern, y: string)
    requires p.Wrapper?
    ensures MatchAt(p, p.open + y, 0) == Shift(|p.open|, AttrEnd(p.attr, p.gt, p.close, y, 0))
  {
    LitAtSelf(p.open, true);
    LitAtPrefix(p.open, y, 0, p.open, true);
    WrapperEndOpen(p.open, p.attr, p.gt, p.close, p.open + y, 0);
    AttrEndShift(p.attr, p.gt, p.close, p.open, y, 0, |p.open|);
  }

  /** `\s+attr` over one space and the attribute: what follows is matched
      from just after the attribute. */
  lemma SpaceThenAttr(attr: string, gt: string, close: string, z: string)
    requires attr != [] && !IsSpace(attr[0])
    ensures AttrEnd(attr, gt, close, " " + attr + z, 0) == Shift(1 + |attr|, TagEnd(gt, close, z, 0))
  {
    var y := " " + attr + z;
    assert y[0] == ' ' && y[1] == attr[0];
    assert SpaceRunEnd(y, 1) == 1;
    LitAtSelf(attr, true);
    LitAtPrefix(attr, z, 0, attr, true);
    assert y == [' '] + (attr + z);
    LitAtShift([' '], attr + z, 0, attr, true);
    AttrEndFound(attr, gt, close, y, 0, 1);
    assert y == (" " + attr) + z;
    TagEndShift(gt, close, " " + attr, z, 0, 1 + |attr|);
  }

  /** `[^gt]*gt.*?close` over `gt body close`, with no `<` in the body. */
  lemma ClosingTag(p: Pattern, body: string)
    requires Shaped(p) && '<' !in body
    ensures TagEnd(p.gt, p.close, p.gt + body + p.close, 0) == Some(|body| + 1 + |p.close|)
  {
    var z := p.gt + body + p.close;
    assert LitAt(z, 0, p.gt, false);
    assert FirstAt(z, 0, p.gt, false) == Some(0);
    LitAtSelf(p.close, true);
    assert z == (p.gt + body) + p.close;
    LitAtShift(p.gt + body, p.close, 0, p.close, true);
    forall k | 1 <= k < 1 + |body| ensures !LitAt(z, k, p.close, true) {
      assert z[k] == body[k - 1];
      LitAtIff(z, k, p.close, true);
    }
    FirstAtIs(z, 1, p.close, true, 1 + |body|);
  }

  /** A wrapper placed inside the opener of another, split after its first
      `n` characters. One pass deletes the inner wrapper, and what is left
      is again a whole wrapper. */
  lemma NestedOnePass(p: Pattern, n: nat, b1: string, b2: string)
    requires Shaped(p) && 0 < n < |p.open|
    requires '<' !in p.attr && '<' !in b1 && '<' !in b2
    ensures Sub(p, p.open[..n] + WrapperText(p, b1) + (p.open[n..] + " " + p.attr + p.gt + b2 + p.close), [], 0)
         == WrapperText(p, b2)
  {
    var a := p.open[..n];
    var w := WrapperText(p, b1);
    var x := p.open[n..] + " " + p.attr + p.gt + b2;
    var c := x + p.close;
    var s := a + w + c;
    OuterRestPlain(p, n, b2);
    assert w[0] == '<';
    WrapperTextMatch(p, b1);
    NoMatchBeforeClose(p, x);
    NestedHeadNoMatch(p, n, w, c);
    RemoveOneWrapper(p, a, w, c);
    OpenerRejoined(p, n, b2);
  }

  /** The opener's first `n` characters and the rest of the outer wrapper
      make a whole wrapper. */
  lemma OpenerRejoined(p: Pattern, n: nat, b: string)
    requires p.Wrapper? && n <= |p.open|
    ensures p.open[..n] + (p.open[n..] + " " + p.attr + p.gt + b + p.close) == WrapperText(p, b)
  {
    assert p.open[..n] + p.open[n..] == p.open;
  }

  /** What follows the inner wrapper, up to the closing tag, holds no `<`. */
  lemma OuterRestPlain(p: Pattern, n: nat, b2: string)
    requires Shaped(p) && 0 < n < |p.open| && '<' !in p.attr && '<' !in b2
    ensures '<' !in p.open[n..] + " " + p.attr + p.gt + b2
  {
    assert p.open[n..] == p.open[1..][n - 1..];
  }

  /** No wrapper starts in the first `n` characters of the opener when a
      `<` follows them. */
  lemma NestedHeadNoMatch(p: Pattern, n: nat, w: string, c: string)
    requires Shaped(p) && 0 < n < |p.open| && w != [] && w[0] == '<'
    ensures forall q :: 0 <= q < n ==> MatchAt(p, p.open[..n] + w + c, q).None?
  {
    var s := p.open[..n] + w + c;
    forall q | 0 <= q < n ensures MatchAt(p, s, q).None? {
      if q == 0 {
        assert s[n] == w[0];
        assert p.open[n] == p.open[1..][n - 1];
        NoOpenAt(p, s, 0, n);
      } else {
        assert s[q] == p.open[1..][q - 1];
        NoOpenAt(p, s, q, 0);
      }
    }
  }

  /** The input that shows it: a wrapper of type `t` placed inside the word
      `details` of another. One pass deletes the inner wrapper, and what is
      left is again a whole wrapper of type `t`, so a second pass changes
      the text: the loop is not idempotent, and its output can still
      contain a `<details type="t"` opener. */
  lemma OnePassLeavesWrapper(t: string, b1: string, b2: string)
    requires '<' !in t && '<' !in b1 && '<' !in b2
    ensures var s := DetailsOpen[..4] + DetailsBlock(t, b1) + (DetailsOpen[4..] + " " + TypeAttr(t) + ">" + b2 + DetailsClose);
            && RemoveDetails(s, [t]) == DetailsBlock(t, b2)
            && MatchAt(Details(t), RemoveDetails(s, [t]), 0).Some?
            && RemoveDetails(RemoveDetails(s, [t]), [t]) != RemoveDetails(s, [t])
  {
    var p := Details(t);
    DetailsShaped(t);
    NestedOnePass(p, 4, b1, b2);
    WrapperTextMatch(p, b2);
    var s := DetailsOpen[..4] + DetailsBlock(t, b1) + (DetailsOpen[4..] + " " + TypeAttr(t) + ">" + b2 + DetailsClose);
    var once := RemoveDetails(s, [t]);
    assert once == RemoveDetails(RemoveType(s, t), []);
    assert !NoMatch(p, once);
  }

  /** The filter as evidently intended: repeat the loop until a pass changes
      nothing. The result holds no wrapper of any listed type, and is a
      fixed point of the loop. */
  function RemoveDetailsFully(s: string, types: seq<string>): (r: string)
    ensures |r| <= |s|
    ensures forall t :: t in types ==> NoMatch(Details(t), r)
    ensures RemoveDetails(r, types) == r
    ensures (forall t :: t in types ==> NoMatch(Details(t), s)) ==> r == s
    decreases |s|
  {
    var once := RemoveDetails(s, types);
    if once == s then s else RemoveDetailsFully(once, types)
  }
}

=== FILE: html.dfy ===
/** `ThinkingTokenProcessor.generate_html_output`: each reasoning block
    becomes a collapsible `<details type="reasoning" ...>` wrapper whose body
    lines are `> `-quoted, and the wrappers and the non-empty main content
    are joined with blank lines. The Python `str` operations it relies on
    (`str(int)`, `str.splitlines`, `"sep".join`, `str.split`) are modelled
    here with the facts that tie them together. */
module Html {
  import opened Text
  import opened ReasoningTags
  import opened Processing

  // ---------------------------------------------------------------------
  // Decimal numbers: `str(n)` for the duration in the wrapper

  predicate IsDigit(c: char) {
    '0' <= c <= '9'
  }

  predicate AllDigits(s: string) {
    forall k :: 0 <= k < |s| ==> IsDigit(s[k])
  }

  function DigitChar(d: nat): (c: char)
    requires d < 10
    ensures IsDigit(c) && c as int - '0' as int == d
  {
    ('0' as int + d) as char
  }

  /** The number a string of decimal digits denotes (`int(s)`). */
  function DigitsValue(s: string): nat
    requires AllDigits(s)
  {
    if s == [] then 0 else 10 * DigitsValue(s[..|s| - 1]) + (s[|s| - 1] as int - '0' as int)
  }

  /** The decimal digits `str(n)` writes for a natural number: no leading
      zero, and `int` reads them back as `n`. */
  function NatStr(n: nat): (r: string)
    ensures r != [] && AllDigits(r)
    ensures DigitsValue(r) == n
    ensures r[0] == '0' ==> r == "0"
  {
    if n < 10 then [DigitChar(n)]
    else
      var r := NatStr(n / 10) + [DigitChar(n % 10)];
      assert r[..|r| - 1] == NatStr(n / 10);
      r
  }

  /** Every canonical digit string (non-empty, no leading zero unless it is
      `"0"`) is what `str` writes for the number it denotes. */
  lemma {:induction false} NatStrOfValue(s: string)
    requires s != [] && AllDigits(s)
    requires s[0] == '0' ==> s == "0"
    ensures NatStr(DigitsValue(s)) == s
    decreases |s|
  {
    var init := s[..|s| - 1];
    if |s| > 1 {
      assert init[0] == s[0];
      PositiveValue(init);
      NatStrOfValue(init);
      assert s == init + [s[|s| - 1]];
    }
  }

  lemma {:induction false} PositiveValue(s: string)
    requires s != [] && AllDigits(s) && s[0] != '0'
    ensures DigitsValue(s) >= 1
    decreases |s|
  {
    if |s| > 1 {
      var init := s[..|s| - 1];
      assert init[0] == s[0];
      PositiveValue(init);
    }
  }

  /** `str(i)` for any integer. */
  function IntStr(i: int): (r: string)
    ensures ParseInt(r) == Some(i)
  {
    if i < 0 then "-" + NatStr(-i) else NatStr(i)
  }

  /** `int(s)` for the strings `str` writes: an optional minus sign and digits. */
  function ParseInt(s: string): Option<int> {
    if s != [] && s[0] == '-' then
      if |s| > 1 && AllDigits(s[1..]) then Some(0 - DigitsValue(s[1..])) else None
    else if s != [] && AllDigits(s) then Some(DigitsValue(s))
    else None
  }

  // ---------------------------------------------------------------------
  // Lines: `str.splitlines()` and `"\n".join`

  /** A line: no character `str.splitlines` splits at. */
  predicate NoBreak(l: string) {
    forall k :: 0 <= k < |l| ==> !IsLineBreak(l[k])
  }

  /** The first line boundary at or after `i`, or `|s|`. */
  function LineEnd(s: string, i: nat): (r: nat)
    requires i <= |s|
    ensures i <= r <= |s|
    ensures forall k :: i <= k < r ==> !IsLineBreak(s[k])
    ensures r < |s| ==> IsLineBreak(s[r])
    decreases |s| - i
  {
    if i == |s| || IsLineBreak(s[i]) then i else LineEnd(s, i + 1)
  }

  /** `str.splitlines()`: the lines between boundaries, a `\r\n` pair being
      one boundary; a boundary at the very end starts no further line. */
  function SplitLines(s: string): (r: seq<string>)
    ensures forall l :: l in r ==> NoBreak(l)
    ensures s != [] ==> r != []
    decreases |s|
  {
    if s == [] then []
    else
      var j := LineEnd(s, 0);
      if j == |s| then [s]
      else
        var next := if s[j] == '\r' && j + 1 < |s| && s[j + 1] == '\n' then j + 2 else j + 1;
        [s[..j]] + SplitLines(s[next..])
  }

  /** `sep.join(parts)`. */
  function Join(sep: string, parts: seq<string>): string
    decreases |parts|
  {
    if parts == [] then []
    else if |parts| == 1 then parts[0]
    else parts[0] + sep + Join(sep, parts[1..])
  }

  lemma {:induction false} JoinAppend(sep: string, a: seq<string>, b: seq<string>)
    requires a != [] && b != []
    ensures Join(sep, a + b) == Join(sep, a) + sep + Join(sep, b)
    decreases |a|
  {
    if |a| > 1 {
      assert (a + b)[1..] == a[1..] + b;
      JoinAppend(sep, a[1..], b);
    } else {
      assert (a + b)[1..] == b;
    }
  }

  /** `"\n".join` and `str.splitlines` are inverse on lines without
      boundaries whose last line is not empty. */
  lemma {:induction false} SplitJoin(lines: seq<string>)
    requires forall l :: l in lines ==> NoBreak(l)
    requires lines == [] || lines[|lines| - 1] != []
    ensures SplitLines(Join("\n", lines)) == lines
    decreases |lines|
  {
    if |lines| == 1 {
      var a := lines[0];
      assert a in lines;
      assert LineEnd(a, 0) == |a|;
    } else if |lines| > 1 {
      var rest := lines[1..];
      assert lines[0] in lines;
      assert forall l :: l in rest ==> l in lines;
      SplitJoin(rest);
      SplitFirstLine(lines[0], Join("\n", rest));
    }
  }

  /** A line without boundaries, a newline and the rest split into the line
      and the rest's lines. */
  lemma SplitFirstLine(a: string, tail: string)
    requires NoBreak(a)
    ensures SplitLines(a + "\n" + tail) == [a] + SplitLines(tail)
  {
    var s := a + "\n" + tail;
    assert s[|a|] == '\n';
    assert forall k :: 0 <= k < |a| ==> s[k] == a[k];
    assert LineEnd(s, 0) == |a|;
    assert s[..|a|] == a;
    assert s[|a| + 1..] == tail;
  }

  // ---------------------------------------------------------------------
  // The reasoning body

  /** `f"> {line}" if not line.startswith(">") else line`. */
  function QuoteLine(l: string): (r: string)
    ensures r != [] && r[0] == '>'
    ensures r == l <==> l != [] && l[0] == '>'
    ensures r != l ==> r == "> " + l
  {
    if |l| > 0 && l[0] == '>' then l else "> " + l
  }

  function Quoted(lines: seq<string>): seq<string> {
    seq(|lines|, i requires 0 <= i < |lines| => QuoteLine(lines[i]))
  }

  /** The quoted body of a wrapper. */
  function FormatReasoning(content: string): string {
    Join("\n", Quoted(SplitLines(content)))
  }

  lemma QuoteKeepsLine(l: string)
    requires NoBreak(l)
    ensures NoBreak(QuoteLine(l))
  {
    var r := QuoteLine(l);
    if r != l {
      forall k | 0 <= k < |r| ensures !IsLineBreak(r[k]) {
        if k >= 2 {
          assert r[k] == l[k - 2];
        }
      }
    }
  }

  /** Quoting keeps the line structure: the formatted body has one line per
      line of the content, each the quoted content line. */
  lemma FormatReasoningLines(content: string)
    ensures SplitLines(FormatReasoning(content)) == Quoted(SplitLines(content))
  {
    var q := Quoted(SplitLines(content));
    QuotedClean(SplitLines(content));
    SplitJoin(q);
  }

  // ---------------------------------------------------------------------
  // One wrapper per block

  const Closer: string := "</details>"

  /** The wrapper's first line: `<details type="reasoning" done="true" duration="d">`. */
  function OpenLine(d: int): string {
    "<details type=\"reasoning\"" + " done=\"true\" duration=\"" + IntStr(d) + "\">"
  }

  /** `Thought for d second`, with the plural `s` unless `d` is 1. */
  function Summary(d: int): string {
    "Thought for " + IntStr(d) + " second" + (if d != 1 then "s" else "")
  }

  function SummaryLine(d: int): string {
    "<summary>" + Summary(d) + "</summary>"
  }

  /** The `html_block` of one reasoning block. */
  function Wrapper(b: Block): string {
    OpenLine(b.duration) + "\n" + SummaryLine(b.duration) + "\n" + FormatReasoning(b.content) + "\n" + Closer
  }

  /** The summary is plural exactly when the duration is not 1, and the
      number it shows reads back as the duration. */
  lemma SummaryPlural(d: int)
    ensures var t := Summary(d);
            && |t| > 12 && t[..12] == "Thought for "
            && (t[|t| - 1] == 's' <==> d != 1)
            && (d == 1 ==> t == "Thought for 1 second")
    ensures var t := Summary(d);
            var unit := if d != 1 then " seconds" else " second";
            && |t| >= 12 + |unit| && t[|t| - |unit|..] == unit
            && ParseInt(t[12..|t| - |unit|]) == Some(d)
  {
    var t := Summary(d);
    var unit := if d != 1 then " seconds" else " second";
    assert t == "Thought for " + IntStr(d) + unit;
    assert t[..12] == "Thought for ";
    assert t[12..|t| - |unit|] == IntStr(d);
    assert t[|t| - |unit|..] == unit;
    if d == 1 {
      assert IntStr(1) == "1";
    }
  }

  /** The wrapper is the opening line, the summary line, the quoted content
      lines and the closing line, in that order, and `str.splitlines` gives
      exactly those lines back. */
  lemma WrapperLines(b: Block)
    requires b.content != []
    ensures Wrapper(b) == Join("\n", WrapperLineList(b))
    ensures SplitLines(Wrapper(b)) == WrapperLineList(b)
  {
    var d := b.duration;
    var body := Quoted(SplitLines(b.content));
    var head := [OpenLine(d), SummaryLine(d)];
    JoinAppend("\n", head, body);
    JoinAppend("\n", head + body, [Closer]);
    assert Join("\n", head) == OpenLine(d) + "\n" + SummaryLine(d);
    LineListClean(b);
    SplitJoin(WrapperLineList(b));
  }

  function WrapperLineList(b: Block): seq<string> {
    [OpenLine(b.duration), SummaryLine(b.duration)] + Quoted(SplitLines(b.content)) + [Closer]
  }

  /** Every line of a wrapper is non-empty and holds no line boundary. */
  lemma LineListClean(b: Block)
    ensures forall l :: l in WrapperLineList(b) ==> l != [] && NoBreak(l)
  {
    QuotedClean(SplitLines(b.content));
    FixedLinesClean(b.duration);
  }

  /** Quoted lines are non-empty lines. */
  lemma QuotedClean(lines: seq<string>)
    requires forall l :: l in lines ==> NoBreak(l)
    ensures forall l :: l in Quoted(lines) ==> l != [] && NoBreak(l)
  {
    var q := Quoted(lines);
    forall l | l in q ensures l != [] && NoBreak(l) {
      var i :| 0 <= i < |q| && q[i] == l;
      assert lines[i] in lines;
      QuoteKeepsLine(lines[i]);
    }
  }

  lemma FixedLinesClean(d: int)
    ensures NoBreak(OpenLine(d)) && NoBreak(SummaryLine(d)) && NoBreak(Closer)
  {
    OpenLineClean(d);
    SummaryLineClean(d);
    LiteralNoBreak(Closer);
  }

  lemma IntStrClean(d: int)
    ensures NoBreak(IntStr(d))
  {
    var n := IntStr(d);
    forall k | 0 <= k < |n| ensures !IsLineBreak(n[k]) {
      if d >= 0 {
        assert IsDigit(n[k]);
      } else if k > 0 {
        assert n[k] == NatStr(-d)[k - 1];
      }
    }
  }

  lemma OpenLineClean(d: int)
    ensures NoBreak(OpenLine(d))
  {
    var n := IntStr(d);
    IntStrClean(d);
    var a1 := "<details type=\"reasoning\"";
    var a2 := " done=\"true\" duration=\"";
    TypePieceClean(a1);
    DurationPieceClean(a2);
    NoBreakConcat(a1, a2);
    NoBreakConcat(a1 + a2, n);
    LiteralNoBreak("\">");
    NoBreakConcat(a1 + a2 + n, "\">");
  }

  lemma TypePieceClean(a: string)
    requires a == "<details type=\"reasoning\""
    ensures NoBreak(a)
  {
    LiteralNoBreak(a);
  }

  lemma DurationPieceClean(a: string)
    requires a == " done=\"true\" duration=\""
    ensures NoBreak(a)
  {
    LiteralNoBreak(a);
  }

  lemma SummaryLineClean(d: int)
    ensures NoBreak(SummaryLine(d))
  {
    SummaryClean(d);
    TagsClean();
    NoBreakConcat("<summary>", Summary(d));
    NoBreakConcat("<summary>" + Summary(d), "</summary>");
  }

  lemma TagsClean()
    ensures NoBreak("<summary>") && NoBreak("</summary>")
  {
    LiteralNoBreak("<summary>");
    LiteralNoBreak("</summary>");
  }

  lemma SummaryClean(d: int)
    ensures NoBreak(Summary(d))
  {
    var n := IntStr(d);
    IntStrClean(d);
    var u := "Thought for ";
    LeadClean();
    NoBreakConcat(u, n);
    var v := " second" + (if d != 1 then "s" else "");
    UnitClean(d != 1);
    NoBreakConcat(u + n, v);
  }

  lemma LeadClean()
    ensures NoBreak("Thought for ")
  {
    LiteralNoBreak("Thought for ");
  }

  lemma UnitClean(plural: bool)
    ensures NoBreak(" second" + (if plural then "s" else ""))
  {
    LiteralNoBreak(" second" + (if plural then "s" else ""));
  }

  /** The fixed texts of a wrapper's first two lines are printable ASCII. */
  lemma LiteralNoBreak(a: string)
    requires forall k :: 0 <= k < |a| ==> ' ' <= a[k] <= '~'
    ensures NoBreak(a)
  {
  }

  lemma NoBreakConcat(a: string, b: string)
    requires NoBreak(a) && NoBreak(b)
    ensures NoBreak(a + b)
  {
    forall k | 0 <= k < |a + b| ensures !IsLineBreak((a + b)[k]) {
      if k >= |a| {
        assert (a + b)[k] == b[k - |a|];
      }
    }
  }

  // ---------------------------------------------------------------------
  // The whole page

  /** `html_parts`: one wrapper per block, in block order, then the main
      content when it is not empty. */
  function HtmlParts(p: Processed): (r: seq<string>)
    ensures |r| == |p.reasoningBlocks| + (if p.mainContent != [] then 1 else 0)
    ensures forall i :: 0 <= i < |p.reasoningBlocks| ==> r[i] == Wrapper(p.reasoningBlocks[i])
    ensures p.mainContent != [] ==> r[|r| - 1] == p.mainContent
  {
    var blocks := p.reasoningBlocks;
    seq(|blocks|, i requires 0 <= i < |blocks| => Wrapper(blocks[i]))
      + (if p.mainContent != [] then [p.mainContent] else [])
  }

  /** `generate_html_output`. */
  function GenerateHtml(p: Processed): (r: string)
    ensures p.reasoningBlocks == [] && p.mainContent == [] ==> r == []
  {
    Join("\n\n", HtmlParts(p))
  }

  /** `str.split(sep)`: the pieces between the leftmost non-overlapping
      occurrences of `sep`. */
  function SplitOn(s: string, sep: string): (r: seq<string>)
    requires sep != []
    ensures r != []
    decreases |s|
  {
    match FirstAt(s, 0, sep, false)
    case None => [s]
    case Some(i) => [s[..i]] + SplitOn(s[i + |sep|..], sep)
  }

  /** No blank line: no newline directly followed by another. */
  predicate NoBlankLine(w: string) {
    forall k :: 0 <= k < |w| - 1 ==> w[k] != '\n' || w[k + 1] != '\n'
  }

  /** A part the page can be split back at: it neither holds a blank line
      nor ends with a newline. */
  predicate Separable(w: string) {
    w != [] && w[|w| - 1] != '\n' && NoBlankLine(w)
  }

  /** Splitting the page at blank lines gives back every wrapper, in block
      order, followed by the pieces of the main content. */
  lemma SplitPage(p: Processed)
    requires forall b :: b in p.reasoningBlocks ==> b.content != []
    requires p.reasoningBlocks != [] || p.mainContent != []
    ensures SplitOn(GenerateHtml(p), "\n\n")
         == HtmlParts(p)[..|p.reasoningBlocks|] + (if p.mainContent != [] then SplitOn(p.mainContent, "\n\n") else [])
  {
    var parts := HtmlParts(p);
    var n := |p.reasoningBlocks|;
    WrappersSeparable(p);
    SplitJoinParts(parts);
    if p.mainContent == [] {
      FirstAtNone(parts[n - 1]);
      DropLast(parts);
    }
  }

  lemma DropLast(x: seq<string>)
    requires x != []
    ensures x[..|x|] == x[..|x| - 1] + [x[|x| - 1]]
  {
  }

  lemma WrappersSeparable(p: Processed)
    requires forall b :: b in p.reasoningBlocks ==> b.content != []
    ensures forall i :: 0 <= i < |p.reasoningBlocks| ==> Separable(HtmlParts(p)[i])
  {
    var parts := HtmlParts(p);
    forall i | 0 <= i < |p.reasoningBlocks| ensures Separable(parts[i]) {
      assert p.reasoningBlocks[i] in p.reasoningBlocks;
      WrapperSeparable(p.reasoningBlocks[i]);
    }
  }

  /** A part with no blank line splits to itself. */
  lemma FirstAtNone(w: string)
    requires NoBlankLine(w)
    ensures SplitOn(w, "\n\n") == [w]
  {
    var f := FirstAt(w, 0, "\n\n", false);
    if f.Some? {
      FirstAtSpec(w, 0, "\n\n", false);
      BlankAt(w, f.value);
    }
  }

  /** Where a blank line occurs: two newlines in a row. */
  lemma BlankAt(s: string, k: nat)
    ensures LitAt(s, k, "\n\n", false) <==> k + 1 < |s| && s[k] == '\n' && s[k + 1] == '\n'
  {
    var lit := "\n\n";
    if LitAt(s, k, lit, false) {
      assert SameChar(s[k + 0], lit[0], false) && SameChar(s[k + 1], lit[1], false);
    }
  }

  /** The first blank line of `a + "\n\n" + rest`, for a separable `a`, is the separator. */
  lemma FirstBlank(a: string, rest: string)
    requires Separable(a)
    ensures FirstAt(a + "\n\n" + rest, 0, "\n\n", false) == Some(|a|)
  {
    var s := a + "\n\n" + rest;
    forall k | 0 <= k < |a| ensures !LitAt(s, k, "\n\n", false) {
      BlankAt(s, k);
      assert s[k] == a[k];
      if k + 1 < |a| {
        assert s[k + 1] == a[k + 1];
      }
    }
    assert s[|a|] == '\n' && s[|a| + 1] == '\n';
    BlankAt(s, |a|);
    FirstAtIs(s, 0, "\n\n", false, |a|);
  }

  /** Joining at blank lines and splitting again gives back every part but
      the last, when those are separable, and then the pieces of the last. */
  lemma {:induction false} SplitJoinParts(parts: seq<string>)
    requires parts != []
    requires forall i :: 0 <= i < |parts| - 1 ==> Separable(parts[i])
    ensures SplitOn(Join("\n\n", parts), "\n\n") == parts[..|parts| - 1] + SplitOn(parts[|parts| - 1], "\n\n")
    decreases |parts|
  {
    if |parts| > 1 {
      var rest := parts[1..];
      forall i | 0 <= i < |rest| - 1 ensures Separable(rest[i]) {
        assert rest[i] == parts[i + 1];
      }
      SplitJoinParts(rest);
      SplitJoinStep(parts[0], rest);
      assert parts == [parts[0]] + rest;
      assert parts[..|parts| - 1] == [parts[0]] + rest[..|rest| - 1];
    }
  }

  /** One step of the split: the first part comes back whole. */
  lemma SplitJoinStep(a: string, rest: seq<string>)
    requires Separable(a) && rest != []
    ensures SplitOn(Join("\n\n", [a] + rest), "\n\n") == [a] + SplitOn(Join("\n\n", rest), "\n\n")
  {
    var tail := Join("\n\n", rest);
    var s := a + "\n\n" + tail;
    assert ([a] + rest)[1..] == rest;
    assert Join("\n\n", [a] + rest) == s;
    FirstBlank(a, tail);
    SplitOnStep(s, "\n\n", |a|);
    PieceSlices(a, "\n\n", tail);
  }

  lemma PieceSlices(a: string, sep: string, tail: string)
    ensures (a + sep + tail)[..|a|] == a && (a + sep + tail)[|a| + |sep|..] == tail
  {
  }

  lemma SplitOnStep(s: string, sep: string, i: nat)
    requires sep != [] && FirstAt(s, 0, sep, false) == Some(i)
    ensures SplitOn(s, sep) == [s[..i]] + SplitOn(s[i + |sep|..], sep)
  {
  }

  /** A wrapper holds no blank line and ends with `</details>`. */
  lemma WrapperSeparable(b: Block)
    requires b.content != []
    ensures Separable(Wrapper(b))
  {
    WrapperLines(b);
    LineListClean(b);
    JoinNoBlank(WrapperLineList(b));
    var w := Wrapper(b);
    assert w[|w| - 1] == Closer[|Closer| - 1];
  }

  /** Lines that are non-empty and hold no boundary join to a text without a blank line. */
  lemma {:induction false} JoinNoBlank(lines: seq<string>)
    requires forall l :: l in lines ==> l != [] && NoBreak(l)
    ensures NoBlankLine(Join("\n", lines))
    decreases |lines|
  {
    if |lines| == 1 {
      assert lines[0] in lines;
    } else if |lines| > 1 {
      var a := lines[0];
      var rest := lines[1..];
      assert a in lines && rest[0] in lines;
      assert forall l :: l in rest ==> l in lines;
      JoinNoBlank(rest);
      var t := Join("\n", rest);
      JoinHead(rest);
      var s := a + "\n" + t;
      forall k | 0 <= k < |s| - 1 ensures s[k] != '\n' || s[k + 1] != '\n' {
        if k < |a| {
          assert s[k] == a[k] && !IsLineBreak(a[k]);
        } else if k == |a| {
          assert s[k + 1] == t[0] && !IsLineBreak(rest[0][0]);
        } else {
          assert s[k] == t[k - |a| - 1] && s[k + 1] == t[k - |a|];
        }
      }
    }
  }

  lemma JoinHead(parts: seq<string>)
    requires parts != [] && parts[0] != []
    ensures var j := Join("\n", parts); j != [] && j[0] == parts[0][0]
  {
  }
}

=== FILE: patterns.dfy ===
/** The four regular expressions and the one `str.replace` needle that the
    reasoning-tag pipeline builds, each modelled by what it matches at one
    position of a text, and the two driving loops Python runs them with:
    `re.finditer` (leftmost, non-overlapping matches, scanning on after each
    match) and `re.sub` / `str.replace` (the same scan, replacing each match).

    Every pattern here is built from literals, so its match at a position is
    a small deterministic search rather than general backtracking:
      - `Tagged(s, e, ci)` is `re.escape(s) (.*?) re.escape(e)` with DOTALL,
        and with IGNORECASE when `ci` holds;
      - `Wrapper(open, attr, gt, close)` is `open\s+attr[^gt]*gt.*?close`
        with DOTALL and IGNORECASE; `Details(t)` is the one the details
        filter builds, `<details\s+type="t"[^>]*>.*?</details>`, with the
        type name matched as literal text (the filter puts it into the
        regex source unescaped; the two readings agree for names without
        regex metacharacters);
      - `BlankLines` is `\n\s*\n`;
      - `Literal(t)` is the needle of `str.replace(t, ...)`.
 */
module Patterns {
  import opened Text

  /** A matched region `[lo, hi)` of a text. */
  datatype Span = Span(lo: nat, hi: nat)

  datatype Pattern =
    | Tagged(start: string, end: string, ci: bool)
    | Wrapper(open: string, attr: string, gt: string, close: string)
    | BlankLines
    | Literal(text: string)

  /** Every pattern the pipeline builds matches at least one character:
      tag literals and replaced texts are never both empty. */
  predicate Consumes(p: Pattern) {
    match p
    case Tagged(st, en, _) => |st| + |en| > 0
    case Literal(t) => |t| > 0
    case _ => true
  }

  const DetailsOpen: string := "<details"
  const DetailsClose: string := "</details>"

  /** The `type="..."` attribute text a details wrapper of type `t` carries. */
  function TypeAttr(t: string): string {
    "type=\"" + t + "\""
  }

  /** The last newline in `s[lo..hi]`: where the greedy `\s*` of `\n\s*\n`
      gives back characters until a newline can follow it. */
  function LastNewline(s: string, lo: nat, hi: nat): (r: Option<nat>)
    requires lo <= hi <= |s|
    ensures r.Some? ==> lo <= r.value < hi
    decreases hi - lo
  {
    if lo == hi then None
    else if s[hi - 1] == '\n' then Some(hi - 1)
    else LastNewline(s, lo, hi - 1)
  }

  /** The newline found is the last one in the range, and none means none. */
  lemma {:induction false} LastNewlineSpec(s: string, lo: nat, hi: nat)
    requires lo <= hi <= |s|
    ensures var r := LastNewline(s, lo, hi);
            && (r.Some? ==> s[r.value] == '\n' && '\n' !in s[r.value + 1..hi])
            && (r.None? ==> '\n' !in s[lo..hi])
    decreases hi - lo
  {
    if lo < hi && s[hi - 1] != '\n' {
      LastNewlineSpec(s, lo, hi - 1);
      assert s[lo..hi] == s[lo..hi - 1] + [s[hi - 1]];
      var r := LastNewline(s, lo, hi - 1);
      if r.Some? {
        assert s[r.value + 1..hi] == s[r.value + 1..hi - 1] + [s[hi - 1]];
      }
    }
  }

  /** `start (.*?) end`: the start literal at `i`, then the first end
      literal after it. */
  function TaggedEnd(st: string, en: string, ci: bool, s: string, i: nat): (r: Option<nat>)
    requires |st| + |en| > 0
    ensures r.Some? ==> i < r.value <= |s|
  {
    if !LitAt(s, i, st, ci) then None
    else
      match FirstAt(s, i + |st|, en, ci)
      case Some(j) => Some(j + |en|)
      case None => None
  }

  /** `<details\s+type="t"[^>]*>.*?</details>`. */
  function Details(t: string): (p: Pattern)
    ensures p.Wrapper? && p.open == DetailsOpen && p.attr == TypeAttr(t)
    ensures p.gt == ">" && p.close == DetailsClose
  {
    Wrapper(DetailsOpen, TypeAttr(t), ">", DetailsClose)
  }

  /** `open\s+attr[^gt]*gt.*?close` at `i`, for literal pieces matched as
      `re.IGNORECASE` does (the `gt` character exactly): the opener, at least
      one whitespace character, the attribute, the first `gt` after it, then
      the first `close` after that. */
  function WrapperEnd(open: string, attr: string, gt: string, close: string, s: string, i: nat): (r: Option<nat>)
    ensures r.Some? ==> i < r.value <= |s|
  {
    if !LitAt(s, i, open, true) then None
    else AttrEnd(attr, gt, close, s, i + |open|)
  }

  /** `\s+attr[^gt]*gt.*?close` from `b`, just after the opener. */
  function AttrEnd(attr: string, gt: string, close: string, s: string, b: nat): (r: Option<nat>)
    requires b <= |s|
    ensures r.Some? ==> b < r.value <= |s|
  {
    var a := SpaceRunEnd(s, b);
    if a == b || !LitAt(s, a, attr, true) then None
    else TagEnd(gt, close, s, a + |attr|)
  }

  /** `[^gt]*gt.*?close` from `c`: the first `gt`, then the first `close` after it. */
  function TagEnd(gt: string, close: string, s: string, c: nat): (r: Option<nat>)
    ensures r.Some? ==> c < r.value <= |s|
  {
    match FirstAt(s, c, gt, false)
    case None => None
    case Some(g) =>
      match FirstAt(s, g + 1, close, true)
      case None => None
      case Some(k) => Some(k + |close|)
  }

  /** `\n\s*\n`: a newline at `i`, then the last newline of the whitespace
      run that follows it. */
  function BlankLinesEnd(s: string, i: nat): (r: Option<nat>)
    ensures r.Some? ==> i < r.value <= |s|
  {
    if i < |s| && s[i] == '\n' then
      match LastNewline(s, i + 1, SpaceRunEnd(s, i + 1))
      case Some(k) => Some(k + 1)
      case None => None
    else None
  }

  /** The end of the match of `p` that starts exactly at index `i`, if any. */
  function MatchAt(p: Pattern, s: string, i: nat): (r: Option<nat>)
    requires Consumes(p)
    ensures r.Some? ==> i < r.value <= |s|
  {
    match p
    case Tagged(st, en, ci) => TaggedEnd(st, en, ci, s, i)
    case Wrapper(o, a, g, c) => WrapperEnd(o, a, g, c, s, i)
    case BlankLines => BlankLinesEnd(s, i)
    case Literal(t) => if LitAt(s, i, t, false) then Some(i + |t|) else None
  }

  // ---------------------------------------------------------------------
  // The scan, for any matcher: `m(q)` is the end of the match that starts
  // at `q`, if one does. Keeping the matcher abstract here keeps these
  // proofs apart from how each pattern decides its matches.

  type Matcher = nat -> Option<nat>

  /** Over a text of length `n`, every match is non-empty and ends in the text. */
  ghost predicate Proper(m: Matcher, n: nat) {
    forall q: nat :: m(q).Some? ==> q < m(q).value <= n
  }

  /** The matcher of pattern `p` over text `s`. */
  function Matches(p: Pattern, s: string): (m: Matcher)
    requires Consumes(p)
    ensures Proper(m, |s|)
  {
    var m: Matcher := q => MatchAt(p, s, q);
    assert forall q: nat :: m(q) == MatchAt(p, s, q);
    m
  }

  lemma MatchesAt(p: Pattern, s: string, q: nat)
    requires Consumes(p)
    ensures Matches(p, s)(q) == MatchAt(p, s, q)
  {
  }

  /** Spans that lie in order, without overlap, between `from` and `bound`. */
  predicate Chain(spans: seq<Span>, from: nat, bound: nat) {
    || spans == []
    || (&& from <= spans[0].lo < spans[0].hi <= bound
        && Chain(spans[1..], spans[0].hi, bound))
  }

  /** Position `q` lies inside one of the spans. */
  predicate Covered(spans: seq<Span>, q: nat) {
    spans != [] && ((spans[0].lo <= q < spans[0].hi) || Covered(spans[1..], q))
  }

  /** Each span is a match that starts at its own start. */
  predicate AllMatch(m: Matcher, spans: seq<Span>) {
    spans == [] || (m(spans[0].lo) == Some(spans[0].hi) && AllMatch(m, spans[1..]))
  }

  predicate NoneSkipped(m: Matcher, n: nat, from: nat, spans: seq<Span>) {
    forall q :: from <= q < n && !Covered(spans, q) ==> m(q).None?
  }

  /** What `re.finditer` promises, stated without its scan: the spans are in
      order and disjoint, each is a match at its own start, and no position
      outside them starts a match. */
  predicate Leftmost(m: Matcher, n: nat, from: nat, spans: seq<Span>) {
    Chain(spans, from, n) && AllMatch(m, spans) && NoneSkipped(m, n, from, spans)
  }

  /** `re.finditer` from index `from`: try each position in turn, and after a
      match continue where it ended. */
  function Scan(m: Matcher, n: nat, from: nat): (r: seq<Span>)
    requires Proper(m, n)
    ensures Chain(r, from, n)
    decreases n - from
  {
    if from >= n then []
    else
      match m(from)
      case Some(e) => [Span(from, e)] + Scan(m, n, e)
      case None => Scan(m, n, from + 1)
  }

  /** The scan finds the leftmost, non-overlapping matches. */
  lemma {:induction false} ScanLeftmost(m: Matcher, n: nat, from: nat)
    requires Proper(m, n)
    ensures Leftmost(m, n, from, Scan(m, n, from))
    decreases n - from
  {
    if from < n {
      match m(from)
      case Some(e) =>
        ScanLeftmost(m, n, e);
        MatchStep(m, n, from, e, Scan(m, n, e));
      case None =>
        ScanLeftmost(m, n, from + 1);
        SkipStep(m, n, from, Scan(m, n, from + 1));
    }
  }

  /** A match at `from` followed by the leftmost matches after it. */
  lemma MatchStep(m: Matcher, n: nat, from: nat, e: nat, rest: seq<Span>)
    requires Proper(m, n) && m(from) == Some(e)
    requires Leftmost(m, n, e, rest)
    ensures Leftmost(m, n, from, [Span(from, e)] + rest)
  {
    var all := [Span(from, e)] + rest;
    assert all[1..] == rest;
    forall q | from <= q < n && !Covered(all, q)
      ensures m(q).None?
    {
      assert !Covered(rest, q);
    }
  }

  /** No match at `from`, then the leftmost matches after it. */
  lemma SkipStep(m: Matcher, n: nat, from: nat, rest: seq<Span>)
    requires Proper(m, n) && m(from).None?
    requires Leftmost(m, n, from + 1, rest)
    ensures Leftmost(m, n, from, rest)
  {
    forall q | from <= q < n && !Covered(rest, q)
      ensures m(q).None?
    {
      if q != from {
        assert from + 1 <= q;
      }
    }
  }

  /** Each member of a list of matches is a match at its own start. */
  lemma {:induction false} AllMatchIn(m: Matcher, spans: seq<Span>, x: Span)
    requires AllMatch(m, spans) && x in spans
    ensures m(x.lo) == Some(x.hi)
    decreases |spans|
  {
    if spans[0] != x {
      assert x in spans[1..];
      AllMatchIn(m, spans[1..], x);
    }
  }

  lemma {:induction false} ChainLow(spans: seq<Span>, from: nat, bound: nat)
    requires Chain(spans, from, bound)
    ensures forall k :: 0 <= k < |spans| ==> from <= spans[k].lo < spans[k].hi <= bound
    decreases |spans|
  {
    if spans != [] {
      ChainLow(spans[1..], spans[0].hi, bound);
      forall k | 1 <= k < |spans| ensures from <= spans[k].lo {
        assert spans[k] == spans[1..][k - 1];
      }
    }
  }

  /** The scan computes the only span list with the `Leftmost` properties,
      so `Leftmost` is a complete description of `re.finditer`. */
  lemma {:induction false} LeftmostUnique(m: Matcher, n: nat, from: nat, spans: seq<Span>)
    requires Proper(m, n)
    requires Leftmost(m, n, from, spans)
    ensures spans == Scan(m, n, from)
    decreases n - from
  {
    if from >= n {
      assert spans == [];
    } else {
      match m(from)
      case Some(e) =>
        LeftmostHead(m, n, from, e, spans);
        LeftmostUnique(m, n, e, spans[1..]);
        assert spans == [spans[0]] + spans[1..];
      case None =>
        LeftmostSkip(m, n, from, spans);
        LeftmostUnique(m, n, from + 1, spans);
    }
  }

  /** When a match starts at `from`, it is the first of the leftmost spans. */
  lemma LeftmostHead(m: Matcher, n: nat, from: nat, e: nat, spans: seq<Span>)
    requires Proper(m, n) && Leftmost(m, n, from, spans)
    requires from < n && m(from) == Some(e)
    ensures spans != [] && spans[0] == Span(from, e)
    ensures Leftmost(m, n, e, spans[1..])
  {
    if spans == [] || spans[0].lo != from {
      NotCoveredBelow(spans, from, n);
      assert false;
    }
    var rest := spans[1..];
    forall q | e <= q < n && !Covered(rest, q)
      ensures m(q).None?
    {
      assert !Covered(spans, q);
    }
  }

  /** When no match starts at `from`, no span starts there either. */
  lemma LeftmostSkip(m: Matcher, n: nat, from: nat, spans: seq<Span>)
    requires Proper(m, n) && Leftmost(m, n, from, spans)
    requires from < n && m(from).None?
    ensures Leftmost(m, n, from + 1, spans)
  {
    if spans != [] {
      assert spans[0].lo != from;
    }
  }

  /** A position before the first span is not covered. */
  lemma {:induction false} NotCoveredBelow(spans: seq<Span>, q: nat, bound: nat)
    requires spans == [] || q < spans[0].lo
    requires spans == [] || Chain(spans, spans[0].lo, bound)
    ensures !Covered(spans, q)
    decreases |spans|
  {
    if spans != [] && spans[1..] != [] {
      NotCoveredBelow(spans[1..], q, bound);
    }
  }

  /** The scan finds nothing exactly when no position from `from` on starts a match. */
  lemma ScanEmpty(m: Matcher, n: nat, from: nat)
    requires Proper(m, n)
    ensures Scan(m, n, from) == [] <==> forall q: nat :: from <= q < n ==> m(q).None?
  {
    var spans := Scan(m, n, from);
    ScanLeftmost(m, n, from);
    if spans != [] {
      AllMatchIn(m, spans, spans[0]);
      assert from <= spans[0].lo < n;
    } else {
      forall q: nat | from <= q < n ensures m(q).None? {
        assert !Covered(spans, q);
      }
    }
  }

  /** `re.sub(p, repl, s)` / `s.replace(t, repl)` from index `from`. */
  function Replace(m: Matcher, s: string, repl: string, from: nat): string
    requires Proper(m, |s|)
    decreases |s| - from
  {
    if from >= |s| then []
    else
      match m(from)
      case Some(e) => repl + Replace(m, s, repl, e)
      case None => [s[from]] + Replace(m, s, repl, from + 1)
  }

  /** `s[from..]` with every span in `spans` replaced by `repl`. */
  function Splice(s: string, spans: seq<Span>, repl: string, from: nat): string
    requires from <= |s| && Chain(spans, from, |s|)
    decreases |spans|
  {
    if spans == [] then s[from..]
    else s[from..spans[0].lo] + repl + Splice(s, spans[1..], repl, spans[0].hi)
  }

  lemma SpliceStep(s: string, spans: seq<Span>, repl: string, from: nat)
    requires from < |s| && Chain(spans, from + 1, |s|)
    ensures Splice(s, spans, repl, from) == [s[from]] + Splice(s, spans, repl, from + 1)
  {
    if spans == [] {
      calc {
        Splice(s, spans, repl, from);
        s[from..];
        [s[from]] + s[from + 1..];
      }
    } else {
      var lo := spans[0].lo;
      var rest := Splice(s, spans[1..], repl, spans[0].hi);
      calc {
        Splice(s, spans, repl, from);
        s[from..lo] + repl + rest;
        { assert s[from..lo] == [s[from]] + s[from + 1..lo]; }
        [s[from]] + s[from + 1..lo] + repl + rest;
        [s[from]] + (s[from + 1..lo] + repl + rest);
        [s[from]] + Splice(s, spans, repl, from + 1);
      }
    }
  }

  /** The substitution scan keeps exactly the text between the `re.finditer`
      matches and puts `repl` in place of each match. */
  lemma {:induction false} ReplaceIsSplice(m: Matcher, s: string, repl: string, from: nat)
    requires Proper(m, |s|) && from <= |s|
    ensures Replace(m, s, repl, from) == Splice(s, Scan(m, |s|, from), repl, from)
    decreases |s| - from
  {
    if from < |s| {
      match m(from)
      case Some(e) =>
        ReplaceIsSplice(m, s, repl, e);
        var rest := Scan(m, |s|, e);
        assert Scan(m, |s|, from) == [Span(from, e)] + rest;
        SpliceCons(s, from, e, rest, repl);
      case None =>
        ReplaceIsSplice(m, s, repl, from + 1);
        assert Scan(m, |s|, from) == Scan(m, |s|, from + 1);
        SpliceStep(s, Scan(m, |s|, from + 1), repl, from);
    }
  }

  /** Splicing a span that starts right at `from`. */
  lemma SpliceCons(s: string, from: nat, e: nat, rest: seq<Span>, repl: string)
    requires from < e <= |s| && Chain(rest, e, |s|)
    ensures Chain([Span(from, e)] + rest, from, |s|)
    ensures Splice(s, [Span(from, e)] + rest, repl, from) == repl + Splice(s, rest, repl, e)
  {
    var all := [Span(from, e)] + rest;
    assert all[1..] == rest;
    assert s[from..from] == [];
  }

  /** When each span and the replacement are whitespace, splicing keeps
      every other character, in order. */
  lemma {:induction false} SpliceKeepsNonSpace(s: string, spans: seq<Span>, repl: string, from: nat)
    requires from <= |s| && Chain(spans, from, |s|)
    requires AllSpace(repl)
    requires forall k :: 0 <= k < |spans| ==> spans[k].lo <= spans[k].hi <= |s| && AllSpace(s[spans[k].lo..spans[k].hi])
    ensures NonSpace(Splice(s, spans, repl, from)) == NonSpace(s[from..])
    decreases |spans|
  {
    if spans != [] {
      var sp := spans[0];
      forall k | 0 <= k < |spans[1..]|
        ensures spans[1..][k].lo <= spans[1..][k].hi <= |s| && AllSpace(s[spans[1..][k].lo..spans[1..][k].hi])
      {
        assert spans[1..][k] == spans[k + 1];
      }
      SpliceKeepsNonSpace(s, spans[1..], repl, sp.hi);
      assert AllSpace(s[sp.lo..sp.hi]);
      assert s[from..] == s[from..sp.lo] + s[sp.lo..sp.hi] + s[sp.hi..];
      SwapSpace(s[from..sp.lo], s[sp.lo..sp.hi], repl, s[sp.hi..], Splice(s, spans[1..], repl, sp.hi));
    }
  }

  /** Trading one whitespace block for another, and a tail for one with the
      same non-whitespace text, keeps the non-whitespace text. */
  lemma SwapSpace(a: string, w: string, r: string, b: string, b': string)
    requires AllSpace(w) && AllSpace(r) && NonSpace(b') == NonSpace(b)
    ensures NonSpace(a + r + b') == NonSpace(a + w + b)
  {
    NonSpaceOfSpace(r);
    NonSpaceOfSpace(w);
    NonSpaceAppend(a + r, b');
    NonSpaceAppend(a, r);
    NonSpaceAppend(a + w, b);
    NonSpaceAppend(a, w);
  }

  /** Replacing each span by `repl` changes the length by the span lengths
      and the copies of `repl`; with `repl` empty and every span of the same
      length `w`, the text shrinks by `w` per span. */
  lemma {:induction false} SpliceLength(s: string, spans: seq<Span>, w: nat, from: nat)
    requires from <= |s| && Chain(spans, from, |s|)
    requires forall k :: 0 <= k < |spans| ==> spans[k].hi - spans[k].lo == w
    ensures |Splice(s, spans, [], from)| == |s| - from - w * |spans|
    decreases |spans|
  {
    if spans != [] {
      forall k | 0 <= k < |spans[1..]| ensures spans[1..][k].hi - spans[1..][k].lo == w {
        assert spans[1..][k] == spans[k + 1];
      }
      SpliceLength(s, spans[1..], w, spans[0].hi);
      assert w * |spans| == w + w * |spans[1..]|;
    }
  }

  /** Deleting spans never lengthens the text, and deleting at least one
      span (each at least one character long) shortens it. */
  lemma {:induction false} SpliceShorter(s: string, spans: seq<Span>, from: nat)
    requires from <= |s| && Chain(spans, from, |s|)
    ensures |Splice(s, spans, [], from)| <= |s| - from
    ensures spans != [] ==> |Splice(s, spans, [], from)| < |s| - from
    decreases |spans|
  {
    if spans != [] {
      SpliceShorter(s, spans[1..], spans[0].hi);
    }
  }

  // ---------------------------------------------------------------------
  // The scan and the substitution of one pattern over one text.

  /** `re.finditer(p, s)` from index `from`. */
  function FindAll(p: Pattern, s: string, from: nat): (r: seq<Span>)
    requires Consumes(p)
    ensures Chain(r, from, |s|)
  {
    Scan(Matches(p, s), |s|, from)
  }

  /** `re.sub(p, repl, s)` from index `from`. */
  function Sub(p: Pattern, s: string, repl: string, from: nat): string
    requires Consumes(p)
  {
    Replace(Matches(p, s), s, repl, from)
  }

  /** No position of `s` starts a match of `p`. */
  predicate NoMatch(p: Pattern, s: string)
    requires Consumes(p)
  {
    forall q: nat :: q < |s| ==> MatchAt(p, s, q).None?
  }

  /** `re.finditer` finds the leftmost, non-overlapping matches of `p`. */
  lemma FindAllLeftmost(p: Pattern, s: string, from: nat)
    requires Consumes(p)
    ensures Leftmost(Matches(p, s), |s|, from, FindAll(p, s, from))
  {
    ScanLeftmost(Matches(p, s), |s|, from);
  }

  /** One step of `re.finditer`: a position that starts no match is passed over. */
  lemma FindAllSkipOne(p: Pattern, s: string, from: nat)
    requires Consumes(p) && from < |s| && MatchAt(p, s, from).None?
    ensures FindAll(p, s, from) == FindAll(p, s, from + 1)
  {
    MatchesAt(p, s, from);
  }

  /** One step of `re.finditer`: a match is reported and the search resumes at its end. */
  lemma FindAllTakeOne(p: Pattern, s: string, from: nat, e: nat)
    requires Consumes(p) && from < |s| && MatchAt(p, s, from) == Some(e)
    ensures FindAll(p, s, from) == [Span(from, e)] + FindAll(p, s, e)
  {
    MatchesAt(p, s, from);
  }

  /** With no match anywhere in `[from, to)`, `re.finditer` skips straight to `to`. */
  lemma {:induction false} FindAllSkip(p: Pattern, s: string, from: nat, to: nat)
    requires Consumes(p) && from <= to <= |s|
    requires forall q :: from <= q < to ==> MatchAt(p, s, q).None?
    ensures FindAll(p, s, from) == FindAll(p, s, to)
    decreases (to as int) - (from as int)
  {
    if from < to {
      FindAllSkipOne(p, s, from);
      FindAllSkip(p, s, from + 1, to);
    }
  }

  /** Each span `re.finditer` reports is a match of `p` at its start. */
  lemma FoundIsMatch(p: Pattern, s: string, from: nat, x: Span)
    requires Consumes(p) && x in FindAll(p, s, from)
    ensures MatchAt(p, s, x.lo) == Some(x.hi)
  {
    var m := Matches(p, s);
    ScanLeftmost(m, |s|, from);
    AllMatchIn(m, FindAll(p, s, from), x);
  }

  /** `re.sub` keeps the text between the matches and replaces each match. */
  lemma SubIsSplice(p: Pattern, s: string, repl: string, from: nat)
    requires Consumes(p) && from <= |s|
    ensures Sub(p, s, repl, from) == Splice(s, FindAll(p, s, from), repl, from)
  {
    ReplaceIsSplice(Matches(p, s), s, repl, from);
  }

  /** `re.sub(p, "", s)`: the result is `s` itself exactly when `p` matches
      nowhere in `s`, and shorter than `s` otherwise. */
  lemma DeleteUnchangedIff(p: Pattern, s: string)
    requires Consumes(p)
    ensures |Sub(p, s, [], 0)| <= |s|
    ensures Sub(p, s, [], 0) == s <==> NoMatch(p, s)
    ensures Sub(p, s, [], 0) != s ==> |Sub(p, s, [], 0)| < |s|
  {
    var m := Matches(p, s);
    var spans := Scan(m, |s|, 0);
    ReplaceIsSplice(m, s, [], 0);
    SpliceShorter(s, spans, 0);
    ScanEmpty(m, |s|, 0);
    forall q: nat ensures m(q) == MatchAt(p, s, q) {
      MatchesAt(p, s, q);
    }
  }

  /** A run that `\n\s*\n` matches is whitespace throughout. */
  lemma BlankLinesSpace(s: string, i: nat, e: nat)
    requires BlankLinesEnd(s, i) == Some(e)
    ensures e <= |s| && AllSpace(s[i..e])
  {
    var run := SpaceRunEnd(s, i + 1);
    SpaceRunEndSpec(s, i + 1);
    forall k | 0 <= k < e - i ensures IsSpace(s[i..e][k]) {
      assert s[i..e][k] == s[i + k];
      if k > 0 {
        assert s[i + 1..run][k - 1] == s[i + k];
      }
    }
  }

  /** A piece of `s[from..]` that overlaps no span survives the splice intact. */
  lemma {:induction false} SpliceKeepsGap(s: string, spans: seq<Span>, repl: string, from: nat, i: nat, j: nat)
    requires from <= i <= j <= |s| && Chain(spans, from, |s|)
    requires forall x :: x in spans ==> x.hi <= i || j <= x.lo
    ensures exists k: nat :: LitAt(Splice(s, spans, repl, from), k, s[i..j], false)
    decreases |spans|
  {
    if spans == [] || j <= spans[0].lo {
      GapBeforeSpans(s, spans, repl, from, i, j);
    } else {
      assert spans[0] in spans;
      assert forall x :: x in spans[1..] ==> x in spans;
      SpliceKeepsGap(s, spans[1..], repl, spans[0].hi, i, j);
      var k: nat :| LitAt(Splice(s, spans[1..], repl, spans[0].hi), k, s[i..j], false);
      GapAfterFirst(s, spans, repl, from, k, s[i..j]);
    }
  }

  /** A piece that ends before the first span is kept where it was, less `from`. */
  lemma GapBeforeSpans(s: string, spans: seq<Span>, repl: string, from: nat, i: nat, j: nat)
    requires from <= i <= j <= |s| && Chain(spans, from, |s|)
    requires spans == [] || j <= spans[0].lo
    ensures LitAt(Splice(s, spans, repl, from), i - from, s[i..j], false)
  {
    if spans == [] {
      GapInHead(s, from, |s|, i, j);
      assert s[from..|s|] == s[from..];
    } else {
      var head := s[from..spans[0].lo];
      var rest := Splice(s, spans[1..], repl, spans[0].hi);
      GapInHead(s, from, spans[0].lo, i, j);
      LitAtPrefix(head, repl, i - from, s[i..j], false);
      LitAtPrefix(head + repl, rest, i - from, s[i..j], false);
    }
  }

  /** An occurrence in what follows the first span survives, after the replacement. */
  lemma GapAfterFirst(s: string, spans: seq<Span>, repl: string, from: nat, k: nat, w: string)
    requires from <= |s| && Chain(spans, from, |s|) && spans != []
    requires LitAt(Splice(s, spans[1..], repl, spans[0].hi), k, w, false)
    ensures LitAt(Splice(s, spans, repl, from), spans[0].lo - from + |repl| + k, w, false)
  {
    var head := s[from..spans[0].lo];
    var rest := Splice(s, spans[1..], repl, spans[0].hi);
    SpliceHead(s, spans, repl, from);
    assert |head + repl| == spans[0].lo - from + |repl|;
    LitAtShift(head + repl, rest, k, w, false);
  }

  /** `Splice` with a first span: the text before it, the replacement, and the rest. */
  lemma SpliceHead(s: string, spans: seq<Span>, repl: string, from: nat)
    requires from <= |s| && Chain(spans, from, |s|) && spans != []
    ensures Splice(s, spans, repl, from) == s[from..spans[0].lo] + repl + Splice(s, spans[1..], repl, spans[0].hi)
  {
  }

  /** A piece inside `s[from..lo]` occurs there, `from` places earlier. */
  lemma GapInHead(s: string, from: nat, lo: nat, i: nat, j: nat)
    requires from <= i <= j <= lo <= |s|
    ensures LitAt(s[from..lo], i - from, s[i..j], false)
  {
    SliceOccurs(s, i, j);
    LitAtSlice(s, from, lo, i - from, s[i..j], false);
  }

}

=== FILE: processing.dfy ===
/** `ThinkingTokenProcessor.process_content`: the detected blocks, the text
    left once every block's matched text is removed, its blank-line runs
    collapsed and its ends stripped, and the total thinking time. */
module Processing {
  import opened Text
  import opened Patterns
  import opened ReasoningTags

  /** The three entries of the dictionary `process_content` returns. */
  datatype Processed = Processed(mainContent: string, reasoningBlocks: seq<Block>, totalReasoningTime: int)

  /** `s.replace(needle, "")`: every leftmost, non-overlapping occurrence
      removed; Python leaves `s` as it is when the needle is empty. */
  function RemoveAll(s: string, needle: string): string {
    if needle == [] then s else Sub(Literal(needle), s, [], 0)
  }

  /** Each occurrence `str.replace` removes is the needle itself, so the text
      shrinks by the needle's length once per leftmost occurrence. */
  lemma RemoveAllLength(s: string, needle: string)
    requires needle != []
    ensures |RemoveAll(s, needle)| == |s| - |needle| * |FindAll(Literal(needle), s, 0)|
  {
    var p := Literal(needle);
    var spans := FindAll(p, s, 0);
    forall k | 0 <= k < |spans| ensures spans[k].hi - spans[k].lo == |needle| {
      FoundIsMatch(p, s, 0, spans[k]);
    }
    SubIsSplice(p, s, [], 0);
    SpliceLength(s, spans, |needle|, 0);
  }

  /** `str.replace` has nothing to remove: the needle is empty or occurs nowhere. */
  predicate Absent(s: string, needle: string) {
    needle == [] || forall i: nat :: i < |s| ==> !LitAt(s, i, needle, false)
  }

  /** `str.replace` changes the text exactly when the needle occurs in it,
      and then shortens it. */
  lemma RemoveAllUnchanged(s: string, needle: string)
    ensures |RemoveAll(s, needle)| <= |s|
    ensures RemoveAll(s, needle) != s ==> |RemoveAll(s, needle)| < |s|
    ensures RemoveAll(s, needle) == s <==> Absent(s, needle)
  {
    if needle != [] {
      var p := Literal(needle);
      DeleteUnchangedIff(p, s);
      if NoMatch(p, s) {
        forall i: nat ensures !LitAt(s, i, needle, false) {
          if i < |s| {
            assert MatchAt(p, s, i).None?;
          }
        }
      } else {
        var q: nat :| q < |s| && MatchAt(p, s, q).Some?;
        assert LitAt(s, q, needle, false);
      }
    }
  }

  /** The loop of `process_content` that removes each block's matched text,
      block by block, from what the earlier removals left. */
  function RemoveMatches(s: string, blocks: seq<Block>): (r: string)
    ensures |r| <= |s|
    ensures r == s <==> forall b :: b in blocks ==> Absent(s, b.originalMatch)
    decreases |blocks|
  {
    if blocks == [] then s
    else
      var once := RemoveAll(s, blocks[0].originalMatch);
      RemoveAllUnchanged(s, blocks[0].originalMatch);
      assert forall b :: b in blocks <==> b == blocks[0] || b in blocks[1..];
      RemoveMatches(once, blocks[1..])
  }

  /** `re.sub(r'\n\s*\n', '\n\n', s)`: every run from a newline through the
      last newline of the whitespace after it becomes one blank line. */
  function Collapse(s: string): string {
    Sub(BlankLines, s, "\n\n", 0)
  }

  /** Collapsing only rewrites whitespace: every other character is kept, in order. */
  lemma CollapseKeepsText(s: string)
    ensures NonSpace(Collapse(s)) == NonSpace(s)
  {
    var spans := FindAll(BlankLines, s, 0);
    ChainLow(spans, 0, |s|);
    forall k | 0 <= k < |spans|
      ensures spans[k].lo <= spans[k].hi <= |s| && AllSpace(s[spans[k].lo..spans[k].hi])
    {
      FoundIsMatch(BlankLines, s, 0, spans[k]);
      BlankLinesSpace(s, spans[k].lo, spans[k].hi);
    }
    SubIsSplice(BlankLines, s, "\n\n", 0);
    SpliceKeepsNonSpace(s, spans, "\n\n", 0);
  }

  // ---------------------------------------------------------------------
  // What collapsing leaves: every blank-line run is exactly "\n\n"

  /** `t[lo..hi]` is whitespace throughout. */
  predicate SpaceIn(t: string, lo: nat, hi: nat)
    requires lo <= hi <= |t|
  {
    forall k :: lo <= k < hi ==> IsSpace(t[k])
  }

  /** No two newlines are separated by a non-empty stretch of whitespace:
      every run `\n\s*\n` is the two characters `\n\n`. */
  predicate BlankLinesCollapsed(t: string) {
    forall i, j :: 0 <= i && i + 2 <= j < |t| && t[i] == '\n' && t[j] == '\n' ==> !SpaceIn(t, i + 1, j)
  }

  /** The leading whitespace of `t` holds no newline. */
  predicate LeadNoNewline(t: string) {
    forall j :: 0 <= j < |t| && t[j] == '\n' ==> !SpaceIn(t, 0, j)
  }

  /** A text without a `\n\s*\n` run is left as it is. */
  lemma CollapseNoRunUnchanged(s: string)
    requires NoMatch(BlankLines, s)
    ensures Collapse(s) == s
  {
    var m := Matches(BlankLines, s);
    forall q: nat | q < |s| ensures m(q).None? {
      MatchesAt(BlankLines, s, q);
    }
    ScanEmpty(m, |s|, 0);
    SubIsSplice(BlankLines, s, "\n\n", 0);
  }

  /** Every `\n\s*\n` match in collapsed text is exactly `\n\n`. */
  lemma CollapseRunsAreTwo(s: string, q: nat, e: nat)
    requires MatchAt(BlankLines, Collapse(s), q) == Some(e)
    ensures e == q + 2 && Collapse(s)[q..e] == "\n\n"
  {
    CollapsedFrom(s, 0);
    CollapsedRunTwo(Collapse(s), q, e);
  }

  /** Collapsing twice is collapsing once. */
  lemma CollapseIdempotent(s: string)
    ensures Collapse(Collapse(s)) == Collapse(s)
  {
    CollapsedFrom(s, 0);
    CollapsedFixed(Collapse(s), 0);
  }

  /** Collapsing leaves a text unchanged exactly when its blank-line runs
      are already single `\n\n`s. */
  lemma CollapseUnchangedIff(s: string)
    ensures Collapse(s) == s <==> BlankLinesCollapsed(s)
  {
    CollapsedFrom(s, 0);
    if BlankLinesCollapsed(s) {
      CollapsedFixed(s, 0);
    }
  }

  /** In text without longer runs, a `\n\s*\n` match is two newlines. */
  lemma CollapsedRunTwo(t: string, q: nat, e: nat)
    requires BlankLinesCollapsed(t)
    requires MatchAt(BlankLines, t, q) == Some(e)
    ensures e == q + 2 && t[q..e] == "\n\n"
  {
    var w := SpaceRunEnd(t, q + 1);
    var k := BlankLinesParts(t, q, e);
    if k >= q + 2 {
      CollapsedAt(t, q, k);
      RunIsSpace(t, q + 1, w, k);
      assert false;
    }
    assert t[q..e] == [t[q], t[k]];
  }

  /** A blank-lines match at `q` ends one past the last newline of the
      whitespace run after `q`. */
  lemma BlankLinesParts(t: string, q: nat, e: nat) returns (k: nat)
    requires MatchAt(BlankLines, t, q) == Some(e)
    ensures q < |t| && t[q] == '\n'
    ensures q + 1 <= k < SpaceRunEnd(t, q + 1) && t[k] == '\n' && e == k + 1
  {
    var w := SpaceRunEnd(t, q + 1);
    LastNewlineSpec(t, q + 1, w);
    k := LastNewline(t, q + 1, w).value;
  }

  /** One instance of `BlankLinesCollapsed`. */
  lemma CollapsedAt(t: string, i: nat, j: nat)
    requires BlankLinesCollapsed(t)
    requires i + 2 <= j < |t| && t[i] == '\n' && t[j] == '\n'
    ensures !SpaceIn(t, i + 1, j)
  {
  }

  /** Every character of a whitespace run up to `k` is whitespace. */
  lemma RunIsSpace(t: string, lo: nat, w: nat, k: nat)
    requires lo <= k <= w && lo <= |t| && w == SpaceRunEnd(t, lo)
    ensures SpaceIn(t, lo, k)
  {
    SpaceRunEndSpec(t, lo);
    forall x | lo <= x < k
      ensures IsSpace(t[x])
    {
      assert t[x] == t[lo..w][x - lo];
    }
  }

  /** Collapsing text without longer runs changes nothing from `from` on. */
  lemma {:induction false} CollapsedFixed(t: string, from: nat)
    requires BlankLinesCollapsed(t) && from <= |t|
    ensures Sub(BlankLines, t, "\n\n", from) == t[from..]
    decreases |t| - from
  {
    if from < |t| {
      SubStep(BlankLines, t, "\n\n", from);
      match MatchAt(BlankLines, t, from)
      case Some(e) =>
        CollapsedRunTwo(t, from, e);
        CollapsedFixed(t, e);
        assert t[from..] == t[from..e] + t[e..];
      case None =>
        CollapsedFixed(t, from + 1);
        assert t[from..] == [t[from]] + t[from + 1..];
    }
  }

  /** Whatever the substitution writes from `from` on has no longer runs. */
  lemma {:induction false} CollapsedFrom(s: string, from: nat)
    requires from <= |s|
    ensures BlankLinesCollapsed(Sub(BlankLines, s, "\n\n", from))
    decreases |s| - from
  {
    if from < |s| {
      SubStep(BlankLines, s, "\n\n", from);
      var w := SpaceRunEnd(s, from + 1);
      LastNewlineSpec(s, from + 1, w);
      match MatchAt(BlankLines, s, from)
      case Some(e) =>
        CollapsedFrom(s, e);
        SpaceRunSame(s, from + 1, e);
        LeadAfterRun(s, e);
        PairKeepsCollapsed(Sub(BlankLines, s, "\n\n", e));
      case None =>
        CollapsedFrom(s, from + 1);
        if s[from] == '\n' {
          LeadAfterRun(s, from + 1);
        }
        CharKeepsCollapsed(s[from], Sub(BlankLines, s, "\n\n", from + 1));
    }
  }

  /** One step of the substitution loop. */
  lemma SubStep(p: Pattern, s: string, repl: string, from: nat)
    requires Consumes(p) && from < |s|
    ensures Sub(p, s, repl, from)
         == match MatchAt(p, s, from)
            case Some(e) => repl + Sub(p, s, repl, e)
            case None => [s[from]] + Sub(p, s, repl, from + 1)
  {
    MatchesAt(p, s, from);
  }

  /** Inside a whitespace run, the run ends where it ends from its start. */
  lemma {:induction false} SpaceRunSame(s: string, i: nat, j: nat)
    requires i <= |s| && i <= j <= SpaceRunEnd(s, i)
    ensures SpaceRunEnd(s, j) == SpaceRunEnd(s, i)
    decreases j - i
  {
    if i < j {
      SpaceRunSame(s, i + 1, j);
    }
  }

  /** A whitespace run without a newline is copied, and nothing after it
      can start with whitespace up to a newline. */
  lemma LeadAfterRun(s: string, p: nat)
    requires p <= |s| && '\n' !in s[p..SpaceRunEnd(s, p)]
    ensures LeadNoNewline(Sub(BlankLines, s, "\n\n", p))
  {
    var w := SpaceRunEnd(s, p);
    SpaceRunEndSpec(s, p);
    CopyRun(s, p);
    var t := Sub(BlankLines, s, "\n\n", p);
    var rest := Sub(BlankLines, s, "\n\n", w);
    assert t == s[p..w] + rest;
    if w < |s| {
      SubStep(BlankLines, s, "\n\n", w);
      assert rest[0] == s[w] && !IsSpace(s[w]);
    } else {
      assert rest == [];
    }
    forall j | 0 <= j < |t| && t[j] == '\n' ensures !SpaceIn(t, 0, j) {
      if j < w - p {
        assert false;
      }
      assert t[w - p] == rest[0];
    }
  }

  /** The substitution copies a whitespace run that holds no newline. */
  lemma {:induction false} CopyRun(s: string, p: nat)
    requires p <= |s| && '\n' !in s[p..SpaceRunEnd(s, p)]
    ensures SpaceRunEnd(s, p) <= |s|
    ensures Sub(BlankLines, s, "\n\n", p) == s[p..SpaceRunEnd(s, p)] + Sub(BlankLines, s, "\n\n", SpaceRunEnd(s, p))
    decreases |s| - p
  {
    var w := SpaceRunEnd(s, p);
    if p < w {
      assert s[p] == s[p..w][0];
      assert SpaceRunEnd(s, p + 1) == w;
      assert s[p + 1..w] == s[p..w][1..];
      CopyRun(s, p + 1);
      CopyOne(s, p);
      assert s[p..w] == [s[p]] + s[p + 1..w];
    }
  }

  /** A character other than a newline is copied as it is. */
  lemma CopyOne(s: string, p: nat)
    requires p < |s| && s[p] != '\n'
    ensures Sub(BlankLines, s, "\n\n", p) == [s[p]] + Sub(BlankLines, s, "\n\n", p + 1)
  {
    SubStep(BlankLines, s, "\n\n", p);
  }

  lemma PairKeepsCollapsed(r: string)
    requires BlankLinesCollapsed(r) && LeadNoNewline(r)
    ensures BlankLinesCollapsed("\n\n" + r)
  {
    var t := "\n\n" + r;
    forall i, j | 0 <= i && i + 2 <= j < |t| && t[i] == '\n' && t[j] == '\n'
      ensures !SpaceIn(t, i + 1, j)
    {
      assert t[j] == r[j - 2];
      if i >= 2 {
        assert t[i] == r[i - 2];
        if SpaceIn(t, i + 1, j) {
          forall x | i - 1 <= x < j - 2 ensures IsSpace(r[x]) {
            assert r[x] == t[x + 2];
          }
          assert false;
        }
      } else if SpaceIn(t, i + 1, j) {
        forall x | 0 <= x < j - 2 ensures IsSpace(r[x]) {
          assert r[x] == t[x + 2];
        }
        assert false;
      }
    }
  }

  lemma CharKeepsCollapsed(c: char, r: string)
    requires BlankLinesCollapsed(r)
    requires c == '\n' ==> LeadNoNewline(r)
    ensures BlankLinesCollapsed([c] + r)
  {
    var t := [c] + r;
    forall i, j | 0 <= i && i + 2 <= j < |t| && t[i] == '\n' && t[j] == '\n'
      ensures !SpaceIn(t, i + 1, j)
    {
      assert t[j] == r[j - 1];
      if i >= 1 {
        assert t[i] == r[i - 1];
        if SpaceIn(t, i + 1, j) {
          forall x | i <= x < j - 1 ensures IsSpace(r[x]) {
            assert r[x] == t[x + 1];
          }
          assert false;
        }
      } else if SpaceIn(t, i + 1, j) {
        forall x | 0 <= x < j - 1 ensures IsSpace(r[x]) {
          assert r[x] == t[x + 1];
        }
        assert false;
      }
    }
  }

  /** `sum(block["duration"] for block in blocks)`. */
  function TotalDuration(blocks: seq<Block>): (r: int)
    ensures (forall i :: 0 <= i < |blocks| ==> blocks[i].duration == 1) ==> r == |blocks|
    ensures (forall i :: 0 <= i < |blocks| ==> blocks[i].duration >= 0) ==> r >= 0
  {
    if blocks == [] then 0 else blocks[0].duration + TotalDuration(blocks[1..])
  }

  /** `process_content(s)` over the tag table `table`: detect the blocks,
      remove each block's matched text, collapse blank-line runs, strip. */
  function ProcessWith(table: seq<TagPair>, s: string): (r: Processed)
    requires ValidTable(table)
    ensures r.reasoningBlocks == DetectWith(table, s, true)
    ensures r.totalReasoningTime == |r.reasoningBlocks|
    ensures r.mainContent == [] || (!IsSpace(r.mainContent[0]) && !IsSpace(r.mainContent[|r.mainContent| - 1]))
    ensures NonSpace(r.mainContent) == NonSpace(RemoveMatches(s, r.reasoningBlocks))
  {
    var blocks := DetectWith(table, s, true);
    var removed := RemoveMatches(s, blocks);
    CollapseKeepsText(removed);
    StripKeepsNonSpace(Collapse(removed));
    Processed(Strip(Collapse(removed)), blocks, TotalDuration(blocks))
  }

  /** `ThinkingTokenProcessor.process_content`: the processor's own table. */
  function ProcessContent(s: string): (r: Processed)
    ensures r.reasoningBlocks == DetectReasoningTags(s)
    ensures r.totalReasoningTime == |r.reasoningBlocks|
    ensures r.mainContent == [] || (!IsSpace(r.mainContent[0]) && !IsSpace(r.mainContent[|r.mainContent| - 1]))
    ensures NonSpace(r.mainContent) == NonSpace(RemoveMatches(s, r.reasoningBlocks))
  {
    ProcessWith(DefaultTags(), s)
  }

  /** A detected block's matched text is a non-empty piece of the input, so
      whenever something is detected the removal loop shortens the text. */
  lemma DetectedTextRemoved(table: seq<TagPair>, s: string)
    requires ValidTable(table) && DetectWith(table, s, true) != []
    ensures |RemoveMatches(s, DetectWith(table, s, true))| < |s|
  {
    var blocks := DetectWith(table, s, true);
    DetectedBlock(table, s, true, 0);
    var sp := Locate(table, s, true, 0)[0].span;
    SliceOccurs(s, sp.lo, sp.hi);
    RemovalShrinks(s, blocks, sp.lo);
  }

  /** When the first block's matched text occurs in the text, the removal
      loop shortens it. */
  lemma RemovalShrinks(s: string, blocks: seq<Block>, lo: nat)
    requires blocks != [] && blocks[0].originalMatch != []
    requires LitAt(s, lo, blocks[0].originalMatch, false)
    ensures |RemoveMatches(s, blocks)| < |s|
  {
    RemoveAllUnchanged(s, blocks[0].originalMatch);
  }

  /** Without reasoning tags the main content is the input, collapsed and
      stripped, and it keeps all of the input's non-whitespace text. */
  lemma NoTagsMainContent(table: seq<TagPair>, s: string)
    requires ValidTable(table) && DetectWith(table, s, true) == []
    ensures ProcessWith(table, s).mainContent == Strip(Collapse(s))
    ensures NonSpace(ProcessWith(table, s).mainContent) == NonSpace(s)
    ensures ProcessWith(table, s).totalReasoningTime == 0
  {
  }
}

=== FILE: reasoning_tags.dfy ===
/** Reasoning-tag detection (`ThinkingTokenProcessor.detect_reasoning_tags`):
    for each tag pair of the table, in table order, the leftmost
    non-overlapping `start (.*?) end` regions of the text, each turned into a
    block whose content is the stripped text between the tags; regions whose
    stripped text is empty are dropped.
 */
module ReasoningTags {
  import opened Text
  import opened Patterns

  datatype TagPair = TagPair(start: string, end: string)

  /** One detected block: the dictionary the processor builds, without the
      wall-clock `started_at` / `ended_at` stamps. Its type is always
      "reasoning". */
  datatype Block = Block(startTag: string, endTag: string, content: string, duration: int, originalMatch: string)

  /** The simulated thinking time every detected block is given. */
  const BlockDuration: int := 1

  predicate ValidTag(t: TagPair) {
    |t.start| > 0 && |t.end| > 0
  }

  predicate ValidTable(table: seq<TagPair>) {
    forall i :: 0 <= i < |table| ==> ValidTag(table[i])
  }

  function StartTags(table: seq<TagPair>): (r: seq<string>)
    ensures |r| == |table| && forall i :: 0 <= i < |table| ==> r[i] == table[i].start
  {
    seq(|table|, i requires 0 <= i < |table| => table[i].start)
  }

  /** The processor's fixed tag table (identical to the test suite's fallback table). */
  function DefaultTags(): (r: seq<TagPair>)
    ensures |r| == 8 && ValidTable(r)
    ensures "<thinking>" in StartTags(r) && "<think>" in StartTags(r) && "<reasoning>" in StartTags(r)
    ensures FoldEqual(r[4].start, r[5].start) && FoldEqual(r[4].end, r[5].end) && r[4] != r[5]
  {
    var r := [
      TagPair("<think>", "</think>"),
      TagPair("<thinking>", "</thinking>"),
      TagPair("<reason>", "</reason>"),
      TagPair("<reasoning>", "</reasoning>"),
      TagPair("<thought>", "</thought>"),
      TagPair("<Thought>", "</Thought>"),
      TagPair("<|begin_of_thought|>", "<|end_of_thought|>"),
      TagPair("\U{25C1}think\U{25B7}", "\U{25C1}/think\U{25B7}")
    ];
    assert StartTags(r)[1] == "<thinking>" && StartTags(r)[0] == "<think>" && StartTags(r)[3] == "<reasoning>";
    r
  }

  function PatternOf(t: TagPair, ci: bool): Pattern {
    Tagged(t.start, t.end, ci)
  }

  /** `sp` is a region `start body end` whose body holds no end tag: the
      shortest match of `start (.*?) end` beginning at `sp.lo`. */
  predicate IsTagMatch(t: TagPair, s: string, sp: Span, ci: bool) {
    && sp.lo + |t.start| + |t.end| <= sp.hi <= |s|
    && LitAt(s, sp.lo, t.start, ci)
    && LitAt(s, sp.hi - |t.end|, t.end, ci)
    && forall k :: sp.lo + |t.start| <= k < sp.hi - |t.end| ==> !LitAt(s, k, t.end, ci)
  }

  /** The match of `start (.*?) end` at a position is exactly a shortest
      `start body end` region there. */
  lemma TaggedMatchIff(t: TagPair, s: string, lo: nat, hi: nat, ci: bool)
    requires |t.start| + |t.end| > 0
    ensures MatchAt(PatternOf(t, ci), s, lo) == Some(hi) <==> IsTagMatch(t, s, Span(lo, hi), ci)
  {
    FirstAtSpec(s, lo + |t.start|, t.end, ci);
    if IsTagMatch(t, s, Span(lo, hi), ci) {
      FirstAtIs(s, lo + |t.start|, t.end, ci, hi - |t.end|);
    }
  }

  /** The scan the regex reduces to for literal delimiters: find the next
      start tag, then the first end tag after it; stop when either is
      missing, otherwise record the region and resume after it. */
  function TagScan(t: TagPair, s: string, from: nat, ci: bool): (r: seq<Span>)
    requires |t.start| + |t.end| > 0
    ensures Chain(r, from, |s|)
    decreases |s| - from
  {
    match FirstAt(s, from, t.start, ci)
    case None => []
    case Some(i) =>
      match FirstAt(s, i + |t.start|, t.end, ci)
      case None => []
      case Some(j) =>
        var sp := Span(i, j + |t.end|);
        var rest := TagScan(t, s, j + |t.end|, ci);
        assert ([sp] + rest)[1..] == rest;
        [sp] + rest
  }

  /** Every region the scan records is a shortest `start body end` region. */
  lemma TagScanMatches(t: TagPair, s: string, from: nat, ci: bool)
    requires |t.start| + |t.end| > 0
    ensures forall x :: x in TagScan(t, s, from, ci) ==> IsTagMatch(t, s, x, ci)
  {
    if from <= |s| {
      var p := PatternOf(t, ci);
      TagScanIsFindAll(t, s, from, ci);
      forall x | x in TagScan(t, s, from, ci) ensures IsTagMatch(t, s, x, ci) {
        FoundIsMatch(p, s, from, x);
        TaggedMatchIff(t, s, x.lo, x.hi, ci);
      }
    } else {
      assert FirstAt(s, from, t.start, ci).None?;
    }
  }

  /** The reduced scan returns exactly the `re.finditer` matches. */
  lemma {:induction false} TagScanIsFindAll(t: TagPair, s: string, from: nat, ci: bool)
    requires |t.start| + |t.end| > 0 && from <= |s|
    ensures TagScan(t, s, from, ci) == FindAll(PatternOf(t, ci), s, from)
    decreases |s| - from
  {
    var fi := FirstAt(s, from, t.start, ci);
    if fi.Some? && FirstAt(s, fi.value + |t.start|, t.end, ci).Some? {
      var j := FirstAt(s, fi.value + |t.start|, t.end, ci).value;
      TagScanIsFindAll(t, s, j + |t.end|, ci);
      ClosedStep(t, s, from, ci, fi.value, j);
    } else {
      OpenScan(t, s, from, ci);
    }
  }

  /** Where no region is closed from `from` on, both scans are empty. */
  lemma OpenScan(t: TagPair, s: string, from: nat, ci: bool)
    requires |t.start| + |t.end| > 0 && from <= |s|
    requires var fi := FirstAt(s, from, t.start, ci);
             fi.None? || FirstAt(s, fi.value + |t.start|, t.end, ci).None?
    ensures TagScan(t, s, from, ci) == FindAll(PatternOf(t, ci), s, from)
  {
    var fi := FirstAt(s, from, t.start, ci);
    if fi.None? {
      NoStartScan(t, s, from, ci);
    } else {
      UnclosedScan(t, s, from, ci, fi.value);
    }
  }

  lemma NoStartScan(t: TagPair, s: string, from: nat, ci: bool)
    requires |t.start| + |t.end| > 0 && from <= |s|
    requires FirstAt(s, from, t.start, ci).None?
    ensures TagScan(t, s, from, ci) == [] == FindAll(PatternOf(t, ci), s, from)
  {
    NoStartNoMatch(t, s, from, ci);
    FindAllSkip(PatternOf(t, ci), s, from, |s|);
  }

  lemma UnclosedScan(t: TagPair, s: string, from: nat, ci: bool, i: nat)
    requires |t.start| + |t.end| > 0 && from <= |s|
    requires FirstAt(s, from, t.start, ci) == Some(i)
    requires FirstAt(s, i + |t.start|, t.end, ci).None?
    ensures TagScan(t, s, from, ci) == [] == FindAll(PatternOf(t, ci), s, from)
  {
    var p := PatternOf(t, ci);
    NoStartNoMatch(t, s, from, ci);
    FindAllSkip(p, s, from, i);
    NoEndNoMatch(t, s, i, ci);
    FindAllSkip(p, s, i, |s|);
  }

  lemma ClosedStep(t: TagPair, s: string, from: nat, ci: bool, i: nat, j: nat)
    requires |t.start| + |t.end| > 0 && from <= |s|
    requires FirstAt(s, from, t.start, ci) == Some(i)
    requires FirstAt(s, i + |t.start|, t.end, ci) == Some(j)
    requires TagScan(t, s, j + |t.end|, ci) == FindAll(PatternOf(t, ci), s, j + |t.end|)
    ensures TagScan(t, s, from, ci) == FindAll(PatternOf(t, ci), s, from)
  {
    ClosedScan(t, s, from, ci, i, j);
    ClosedFindAll(t, s, from, ci, i, j);
  }

  lemma ClosedScan(t: TagPair, s: string, from: nat, ci: bool, i: nat, j: nat)
    requires |t.start| + |t.end| > 0 && from <= |s|
    requires FirstAt(s, from, t.start, ci) == Some(i)
    requires FirstAt(s, i + |t.start|, t.end, ci) == Some(j)
    ensures TagScan(t, s, from, ci) == [Span(i, j + |t.end|)] + TagScan(t, s, j + |t.end|, ci)
  {
  }

  /** One step of the scan, with the positions named: the start tag at `i`,
      the body from `b`, the end tag at `j`, the next search from `e`. */
  lemma ScanStep(t: TagPair, s: string, from: nat, ci: bool, i: nat, b: nat, j: nat, e: nat)
    requires |t.start| + |t.end| > 0 && b == i + |t.start| && e == j + |t.end|
    requires FirstAt(s, from, t.start, ci) == Some(i)
    requires FirstAt(s, b, t.end, ci) == Some(j)
    ensures TagScan(t, s, from, ci) == [Span(i, e)] + TagScan(t, s, e, ci)
  {
  }

  /** The scan stops when no start tag follows, or none of the end tag after it. */
  lemma ScanStops(t: TagPair, s: string, from: nat, ci: bool)
    requires |t.start| + |t.end| > 0
    requires || FirstAt(s, from, t.start, ci).None?
             || FirstAt(s, FirstAt(s, from, t.start, ci).value + |t.start|, t.end, ci).None?
    ensures TagScan(t, s, from, ci) == []
  {
  }

  lemma ClosedFindAll(t: TagPair, s: string, from: nat, ci: bool, i: nat, j: nat)
    requires |t.start| + |t.end| > 0 && from <= |s|
    requires FirstAt(s, from, t.start, ci) == Some(i)
    requires FirstAt(s, i + |t.start|, t.end, ci) == Some(j)
    ensures FindAll(PatternOf(t, ci), s, from) == [Span(i, j + |t.end|)] + FindAll(PatternOf(t, ci), s, j + |t.end|)
  {
    FirstAtSpec(s, from, t.start, ci);
    NoStartNoMatch(t, s, from, ci);
    FindAllSkip(PatternOf(t, ci), s, from, i);
    ClosedMatch(t, s, i, j, ci);
  }

  lemma ClosedMatch(t: TagPair, s: string, i: nat, j: nat, ci: bool)
    requires |t.start| + |t.end| > 0
    requires LitAt(s, i, t.start, ci)
    requires FirstAt(s, i + |t.start|, t.end, ci) == Some(j)
    ensures FindAll(PatternOf(t, ci), s, i) == [Span(i, j + |t.end|)] + FindAll(PatternOf(t, ci), s, j + |t.end|)
  {
    TaggedMatchIff(t, s, i, j + |t.end|, ci);
    FindAllTakeOne(PatternOf(t, ci), s, i, j + |t.end|);
  }

  /** Positions before the next start tag start no match. */
  lemma NoStartNoMatch(t: TagPair, s: string, from: nat, ci: bool)
    requires |t.start| + |t.end| > 0
    ensures var fi := FirstAt(s, from, t.start, ci);
            forall q :: from <= q && (fi.None? || q < fi.value) ==> MatchAt(PatternOf(t, ci), s, q).None?
  {
    FirstAtSpec(s, from, t.start, ci);
  }

  /** After a start tag with no end tag following it, nothing matches. */
  lemma NoEndNoMatch(t: TagPair, s: string, i: nat, ci: bool)
    requires |t.start| + |t.end| > 0
    requires FirstAt(s, i + |t.start|, t.end, ci).None?
    ensures forall q :: i <= q ==> MatchAt(PatternOf(t, ci), s, q).None?
  {
    FirstAtSpec(s, i + |t.start|, t.end, ci);
    forall q | i <= q ensures MatchAt(PatternOf(t, ci), s, q).None? {
      var f := FirstAt(s, q + |t.start|, t.end, ci);
      if LitAt(s, q, t.start, ci) && f.Some? {
        FirstAtSpec(s, q + |t.start|, t.end, ci);
        assert false;
      }
    }
  }

  /** The text strictly between the tags of a matched region. */
  function Body(t: TagPair, s: string, sp: Span): string
    requires sp.lo + |t.start| + |t.end| <= sp.hi <= |s|
  {
    s[sp.lo + |t.start|..sp.hi - |t.end|]
  }

  /** A matched region whose body is not all whitespace: the only regions
      that become blocks. */
  predicate Kept(t: TagPair, s: string, sp: Span) {
    sp.lo + |t.start| + |t.end| <= sp.hi <= |s| && Strip(Body(t, s, sp)) != []
  }

  /** The spans among `spans` that become blocks, in order. */
  function KeptSpans(t: TagPair, s: string, spans: seq<Span>): (r: seq<Span>)
    ensures forall k :: 0 <= k < |r| ==> Kept(t, s, r[k])
    ensures forall x :: x in r ==> x in spans
    ensures forall x :: x in spans && Kept(t, s, x) ==> x in r
  {
    if spans == [] then []
    else
      var rest := KeptSpans(t, s, spans[1..]);
      assert spans == [spans[0]] + spans[1..];
      if Kept(t, s, spans[0]) then [spans[0]] + rest else rest
  }

  lemma {:induction false} KeptSpansChain(t: TagPair, s: string, spans: seq<Span>, from: nat)
    requires Chain(spans, from, |s|)
    ensures Chain(KeptSpans(t, s, spans), from, |s|)
    decreases |spans|
  {
    if spans != [] {
      KeptSpansChain(t, s, spans[1..], spans[0].hi);
      var rest := KeptSpans(t, s, spans[1..]);
      if !Kept(t, s, spans[0]) {
        ChainWeaken(rest, spans[0].hi, from, |s|);
      } else {
        assert ([spans[0]] + rest)[1..] == rest;
      }
    }
  }

  lemma ChainWeaken(spans: seq<Span>, from: nat, from': nat, bound: nat)
    requires Chain(spans, from, bound) && from' <= from
    ensures Chain(spans, from', bound)
  {
  }

  /** Spans in a chain are ordered: an earlier one ends before a later one starts. */
  lemma {:induction false} ChainOrdered(spans: seq<Span>, from: nat, bound: nat)
    requires Chain(spans, from, bound)
    ensures forall i, j :: 0 <= i < j < |spans| ==> spans[i].hi <= spans[j].lo
    decreases |spans|
  {
    if spans != [] {
      ChainOrdered(spans[1..], spans[0].hi, bound);
      ChainLow(spans[1..], spans[0].hi, bound);
      forall i, j | 0 <= i < j < |spans| ensures spans[i].hi <= spans[j].lo {
        assert spans[j] == spans[1..][j - 1];
        if i > 0 {
          assert spans[i] == spans[1..][i - 1];
        }
      }
    }
  }

  /** A detected block together with where it came from: the index of its
      tag pair in the table and its region of the text. */
  datatype Found = Found(tagIndex: nat, span: Span)

  /** `f` names a pair of the table and a region that pair matches and keeps. */
  predicate Located(table: seq<TagPair>, s: string, ci: bool, f: Found) {
    && f.tagIndex < |table|
    && IsTagMatch(table[f.tagIndex], s, f.span, ci)
    && Kept(table[f.tagIndex], s, f.span)
  }

  /** The kept regions of the pairs `table[k..]`, pair by pair. */
  function Locate(table: seq<TagPair>, s: string, ci: bool, k: nat): (r: seq<Found>)
    requires ValidTable(table) && k <= |table|
    ensures forall f :: f in r ==> k <= f.tagIndex && Located(table, s, ci, f)
    decreases |table| - k
  {
    if k == |table| then []
    else
      var here := Tag(k, PairRegions(table[k], s, ci));
      var rest := Locate(table, s, ci, k + 1);
      assert forall f :: f in here ==> Located(table, s, ci, f);
      here + rest
  }

  /** A region is located for pair `i` exactly when `i` is one of the pairs
      `table[k..]` and the region is one of that pair's kept regions. */
  lemma {:induction false} LocateMembers(table: seq<TagPair>, s: string, ci: bool, k: nat)
    requires ValidTable(table) && k <= |table|
    ensures forall f :: f in Locate(table, s, ci, k) <==> k <= f.tagIndex < |table| && f.span in PairRegions(table[f.tagIndex], s, ci)
    decreases |table| - k, 1
  {
    if k < |table| {
      LocateMembersFrom(table, s, ci, k);
    } else {
      LocateEnd(table, s, ci, k);
    }
  }

  lemma {:induction false} LocateMembersFrom(table: seq<TagPair>, s: string, ci: bool, k: nat)
    requires ValidTable(table) && k < |table|
    ensures forall f :: f in Locate(table, s, ci, k) <==> k <= f.tagIndex < |table| && f.span in PairRegions(table[f.tagIndex], s, ci)
    decreases |table| - k, 0
  {
    LocateMembers(table, s, ci, k + 1);
    LocateMembersStep(table, s, ci, k);
  }

  lemma LocateEnd(table: seq<TagPair>, s: string, ci: bool, k: nat)
    requires ValidTable(table) && k == |table|
    ensures Locate(table, s, ci, k) == []
  {
  }

  lemma LocateMembersStep(table: seq<TagPair>, s: string, ci: bool, k: nat)
    requires ValidTable(table) && k < |table|
    requires forall f :: f in Locate(table, s, ci, k + 1) <==> k + 1 <= f.tagIndex < |table| && f.span in PairRegions(table[f.tagIndex], s, ci)
    ensures forall f :: f in Locate(table, s, ci, k) <==> k <= f.tagIndex < |table| && f.span in PairRegions(table[f.tagIndex], s, ci)
  {
    forall f ensures f in Locate(table, s, ci, k) <==> k <= f.tagIndex < |table| && f.span in PairRegions(table[f.tagIndex], s, ci) {
      LocateMember(table, s, ci, k, f);
    }
  }

  lemma LocateMember(table: seq<TagPair>, s: string, ci: bool, k: nat, f: Found)
    requires ValidTable(table) && k < |table|
    requires f in Locate(table, s, ci, k + 1) <==> k + 1 <= f.tagIndex < |table| && f.span in PairRegions(table[f.tagIndex], s, ci)
    ensures f in Locate(table, s, ci, k) <==> k <= f.tagIndex < |table| && f.span in PairRegions(table[f.tagIndex], s, ci)
  {
    LocateStep(table, s, ci, k);
    assert f in Locate(table, s, ci, k) <==> f in Tag(k, PairRegions(table[k], s, ci)) || f in Locate(table, s, ci, k + 1);
  }

  /** The regions `spans`, all attributed to the pair at index `k`. */
  function Tag(k: nat, spans: seq<Span>): (r: seq<Found>)
    ensures |r| == |spans|
    ensures forall f :: f in r <==> f.tagIndex == k && f.span in spans
    ensures forall i :: 0 <= i < |r| ==> r[i].span == spans[i]
  {
    if spans == [] then []
    else
      assert spans == [spans[0]] + spans[1..];
      [Found(k, spans[0])] + Tag(k, spans[1..])
  }

  /** The regions of one pair that become blocks. */
  function PairRegions(t: TagPair, s: string, ci: bool): (r: seq<Span>)
    requires ValidTag(t)
    ensures forall x :: x in r ==> IsTagMatch(t, s, x, ci) && Kept(t, s, x)
  {
    var spans := TagScan(t, s, 0, ci);
    TagScanMatches(t, s, 0, ci);
    var kept := KeptSpans(t, s, spans);
    assert forall x :: x in kept ==> IsTagMatch(t, s, x, ci) by {
      forall x | x in kept ensures IsTagMatch(t, s, x, ci) {
        var k :| 0 <= k < |spans| && spans[k] == x;
      }
    }
    kept
  }

  lemma PairRegionsChain(t: TagPair, s: string, ci: bool)
    requires ValidTag(t)
    ensures Chain(PairRegions(t, s, ci), 0, |s|)
  {
    KeptSpansChain(t, s, TagScan(t, s, 0, ci), 0);
  }

  /** The block a located region becomes. */
  function BlockOf(table: seq<TagPair>, s: string, f: Found): Block
    requires f.tagIndex < |table|
    requires f.span.lo + |table[f.tagIndex].start| + |table[f.tagIndex].end| <= f.span.hi <= |s|
  {
    MakeBlock(table[f.tagIndex], s, f.span)
  }

  function MakeBlock(t: TagPair, s: string, sp: Span): Block
    requires sp.lo + |t.start| + |t.end| <= sp.hi <= |s|
  {
    Block(t.start, t.end, Strip(Body(t, s, sp)), BlockDuration, s[sp.lo..sp.hi])
  }

  /** `detect_reasoning_tags` over a given table and case mode. */
  function DetectWith(table: seq<TagPair>, s: string, ci: bool): (r: seq<Block>)
    requires ValidTable(table)
    ensures |r| == |Locate(table, s, ci, 0)|
    ensures forall i :: 0 <= i < |r| ==> r[i].content != [] && r[i].duration == 1
  {
    BlocksOf(table, s, ci, Locate(table, s, ci, 0))
  }

  /** The blocks made from the located regions `fs`, one each, in order. */
  function BlocksOf(table: seq<TagPair>, s: string, ci: bool, fs: seq<Found>): (r: seq<Block>)
    requires forall f :: f in fs ==> Located(table, s, ci, f)
    ensures |r| == |fs|
    ensures forall i :: 0 <= i < |r| ==> r[i].content != [] && r[i].duration == 1
  {
    if fs == [] then []
    else
      var f := fs[0];
      assert f in fs;
      assert Located(table, s, ci, f);
      [BlockOf(table, s, f)] + BlocksOf(table, s, ci, fs[1..])
  }

  lemma {:induction false} BlocksOfAt(table: seq<TagPair>, s: string, ci: bool, fs: seq<Found>, i: nat)
    requires forall f :: f in fs ==> Located(table, s, ci, f)
    requires i < |fs|
    ensures fs[i] in fs && BlocksOf(table, s, ci, fs)[i] == BlockOf(table, s, fs[i])
  {
    if i > 0 {
      BlocksOfAt(table, s, ci, fs[1..], i - 1);
      assert fs[1..][i - 1] == fs[i];
    }
  }

  /** `ThinkingTokenProcessor.detect_reasoning_tags`: the default table, matching case-insensitively. */
  function DetectReasoningTags(s: string): (r: seq<Block>)
    ensures |r| == |Locate(DefaultTags(), s, true, 0)|
    ensures forall i :: 0 <= i < |r| ==> r[i].content != [] && r[i].duration == 1
  {
    DetectWith(DefaultTags(), s, true)
  }

  /** Every returned block is a located region made into a block: its
      content is the stripped, non-empty text between a start tag and the
      first end tag after it; its original match is the region's text, which
      begins with the start tag and ends with the end tag (up to case when
      matching ignores it, exactly otherwise); its body holds no end tag; its
      duration is 1. */
  lemma DetectedBlock(table: seq<TagPair>, s: string, ci: bool, i: nat)
    requires ValidTable(table) && i < |DetectWith(table, s, ci)|
    ensures var f := Locate(table, s, ci, 0)[i];
            && Located(table, s, ci, f)
            && DetectWith(table, s, ci)[i] == BlockOf(table, s, f)
            && BlockShape(table[f.tagIndex], s, ci, f.span, DetectWith(table, s, ci)[i])
  {
    var fs := Locate(table, s, ci, 0);
    BlocksOfAt(table, s, ci, fs, i);
    var f := fs[i];
    BlockOfShape(table[f.tagIndex], s, ci, f.span);
  }

  /** What a block made from the region `sp` of pair `t` looks like. */
  ghost predicate BlockShape(t: TagPair, s: string, ci: bool, sp: Span, b: Block)
    requires sp.lo + |t.start| + |t.end| <= sp.hi <= |s|
  {
    && b.startTag == t.start && b.endTag == t.end
    && b.originalMatch == s[sp.lo..sp.hi]
    && MatchShape(t, ci, b.originalMatch, Body(t, s, sp))
    && b.content == Strip(Body(t, s, sp)) && b.content != []
    && b.duration == 1
  }

  /** `m` is the start tag, then `body`, then the end tag (up to case when
      `ci` is set, exactly otherwise), and `body` holds no end tag. */
  ghost predicate MatchShape(t: TagPair, ci: bool, m: string, body: string) {
    && |m| == |t.start| + |body| + |t.end|
    && LitAt(m, 0, t.start, ci)
    && LitAt(m, |m| - |t.end|, t.end, ci)
    && m[|t.start|..|m| - |t.end|] == body
    && (!ci ==> m == t.start + body + t.end)
    && (forall k :: !LitAt(body, k, t.end, ci))
  }

  lemma BlockOfShape(t: TagPair, s: string, ci: bool, sp: Span)
    requires ValidTag(t) && IsTagMatch(t, s, sp, ci) && Kept(t, s, sp)
    ensures BlockShape(t, s, ci, sp, MakeBlock(t, s, sp))
  {
    RegionShape(t, s, ci, sp);
  }

  /** The text of a matched region has the shape of a match. */
  lemma RegionShape(t: TagPair, s: string, ci: bool, sp: Span)
    requires ValidTag(t) && IsTagMatch(t, s, sp, ci)
    ensures MatchShape(t, ci, s[sp.lo..sp.hi], Body(t, s, sp))
  {
    RegionEnds(t, s, ci, sp);
    RegionBodyClean(t, s, ci, sp);
    if !ci {
      RegionExact(t, s, sp);
    }
  }

  /** The region text starts with the start tag and ends with the end tag,
      and what lies between is the body. */
  lemma RegionEnds(t: TagPair, s: string, ci: bool, sp: Span)
    requires IsTagMatch(t, s, sp, ci)
    ensures var m := s[sp.lo..sp.hi];
            && LitAt(m, 0, t.start, ci)
            && LitAt(m, |m| - |t.end|, t.end, ci)
            && m[|t.start|..|m| - |t.end|] == Body(t, s, sp)
  {
    var m := s[sp.lo..sp.hi];
    LitAtSlice(s, sp.lo, sp.hi, 0, t.start, ci);
    LitAtSlice(s, sp.lo, sp.hi, |m| - |t.end|, t.end, ci);
    SliceOfSlice(s, sp.lo, sp.hi, |t.start|, |m| - |t.end|);
  }

  /** The body of a region holds no end tag. */
  lemma RegionBodyClean(t: TagPair, s: string, ci: bool, sp: Span)
    requires ValidTag(t) && IsTagMatch(t, s, sp, ci)
    ensures forall k :: !LitAt(Body(t, s, sp), k, t.end, ci)
  {
    forall k | LitAt(Body(t, s, sp), k, t.end, ci) ensures false {
      LitAtSlice(s, sp.lo + |t.start|, sp.hi - |t.end|, k, t.end, ci);
    }
  }

  /** Matched case-sensitively, a region is literally start tag, body, end tag. */
  lemma RegionExact(t: TagPair, s: string, sp: Span)
    requires IsTagMatch(t, s, sp, false)
    ensures s[sp.lo..sp.hi] == t.start + Body(t, s, sp) + t.end
  {
    ExactLitAt(s, sp.lo, t.start);
    ExactLitAt(s, sp.hi - |t.end|, t.end);
    assert s[sp.lo..sp.hi] == s[sp.lo..sp.lo + |t.start|] + s[sp.lo + |t.start|..sp.hi - |t.end|] + s[sp.hi - |t.end|..sp.hi];
  }

  /** `a` comes before `b` in detection order: an earlier pair of the
      table, or the same pair and an earlier region of the text. */
  predicate Before(a: Found, b: Found) {
    || a.tagIndex < b.tagIndex
    || (a.tagIndex == b.tagIndex && a.span.hi <= b.span.lo)
  }

  predicate InOrder(r: seq<Found>) {
    forall i, j :: 0 <= i < j < |r| ==> Before(r[i], r[j])
  }

  /** Blocks come out grouped by the position of their tag pair in the
      table, and within one pair in the order of their regions in the text. */
  lemma {:induction false} LocateOrdered(table: seq<TagPair>, s: string, ci: bool, k: nat)
    requires ValidTable(table) && k <= |table|
    ensures InOrder(Locate(table, s, ci, k))
    decreases |table| - k
  {
    if k < |table| {
      LocateOrdered(table, s, ci, k + 1);
      var kept := PairRegions(table[k], s, ci);
      PairRegionsChain(table[k], s, ci);
      ChainOrdered(kept, 0, |s|);
      TagInOrder(k, kept);
      HereBeforeRest(table, s, ci, k);
      InOrderAppend(Tag(k, kept), Locate(table, s, ci, k + 1));
      LocateStep(table, s, ci, k);
    }
  }

  lemma LocateStep(table: seq<TagPair>, s: string, ci: bool, k: nat)
    requires ValidTable(table) && k < |table|
    ensures Locate(table, s, ci, k) == Tag(k, PairRegions(table[k], s, ci)) + Locate(table, s, ci, k + 1)
  {
  }

  /** The blocks of pair `k` come before those of the later pairs. */
  lemma HereBeforeRest(table: seq<TagPair>, s: string, ci: bool, k: nat)
    requires ValidTable(table) && k < |table|
    ensures forall x, y :: x in Tag(k, PairRegions(table[k], s, ci)) && y in Locate(table, s, ci, k + 1) ==> Before(x, y)
  {
  }

  /** Regions in text order, all of one pair, are in detection order. */
  lemma TagInOrder(k: nat, spans: seq<Span>)
    requires forall i, j :: 0 <= i < j < |spans| ==> spans[i].hi <= spans[j].lo
    ensures InOrder(Tag(k, spans))
  {
    var here := Tag(k, spans);
    forall i, j | 0 <= i < j < |here| ensures Before(here[i], here[j]) {
      assert here[i] in here && here[j] in here;
    }
  }

  lemma InOrderAppend(a: seq<Found>, b: seq<Found>)
    requires InOrder(a) && InOrder(b)
    requires forall x, y :: x in a && y in b ==> Before(x, y)
    ensures InOrder(a + b)
  {
    var c := a + b;
    forall i, j | 0 <= i < j < |c| ensures Before(c[i], c[j]) {
      if j < |a| {
        assert c[i] == a[i] && c[j] == a[j];
      } else if i < |a| {
        assert c[i] == a[i] && c[j] == b[j - |a|];
      } else {
        assert c[i] == b[i - |a|] && c[j] == b[j - |a|];
      }
    }
  }
}

=== FILE: tag_properties.dfy ===
/** Consequences of the tag scan: the case-folding duplicate in the default
    table, a text holding a single tagged section, unclosed start tags, and
    the extraction-pattern edge cases the test suite pins down.
 */
module TagProperties {
  import opened Text
  import opened Patterns
  import opened ReasoningTags

  /** Matching ignoring case, literals equal up to folding occur at the same places. */
  lemma FoldEqualLitAt(s: string, i: nat, a: string, b: string)
    requires FoldEqual(a, b)
    ensures LitAt(s, i, a, true) == LitAt(s, i, b, true)
  {
    LitAtIff(s, i, a, true);
    LitAtIff(s, i, b, true);
    if LitAt(s, i, a, true) {
      forall k | 0 <= k < |b| ensures SameChar(s[i + k], b[k], true) {
        assert SameChar(s[i + k], a[k], true);
      }
    }
    if LitAt(s, i, b, true) {
      forall k | 0 <= k < |a| ensures SameChar(s[i + k], a[k], true) {
        assert SameChar(s[i + k], b[k], true);
      }
    }
  }

  lemma {:induction false} FoldEqualFirstAt(s: string, from: nat, a: string, b: string)
    requires FoldEqual(a, b)
    ensures FirstAt(s, from, a, true) == FirstAt(s, from, b, true)
    decreases |s| - from
  {
    FoldEqualLitAt(s, from, a, b);
    if from + |a| <= |s| && !LitAt(s, from, a, true) {
      FoldEqualFirstAt(s, from + 1, a, b);
    }
  }

  /** Two pairs whose tags are equal up to ASCII case scan to the same
      regions when matching ignores case. */
  lemma {:induction false} FoldEqualScan(t1: TagPair, t2: TagPair, s: string, from: nat)
    requires ValidTag(t1) && FoldEqual(t1.start, t2.start) && FoldEqual(t1.end, t2.end)
    ensures TagScan(t1, s, from, true) == TagScan(t2, s, from, true)
    decreases |s| - from
  {
    FoldEqualFirstAt(s, from, t1.start, t2.start);
    var fi := FirstAt(s, from, t1.start, true);
    if fi.None? {
      ScanStops(t1, s, from, true);
      ScanStops(t2, s, from, true);
    } else {
      var i := fi.value;
      var b := i + |t1.start|;
      FoldEqualFirstAt(s, b, t1.end, t2.end);
      var fj := FirstAt(s, b, t1.end, true);
      if fj.None? {
        ScanStops(t1, s, from, true);
        ScanStops(t2, s, from, true);
      } else {
        var j := fj.value;
        var e := j + |t1.end|;
        ScanStep(t1, s, from, true, i, b, j, e);
        ScanStep(t2, s, from, true, i, b, j, e);
        FoldEqualScan(t1, t2, s, e);
      }
    }
  }

  /** Which regions are kept depends on the tags only through their lengths. */
  lemma {:induction false} KeptSpansByLength(t1: TagPair, t2: TagPair, s: string, spans: seq<Span>)
    requires |t1.start| == |t2.start| && |t1.end| == |t2.end|
    ensures KeptSpans(t1, s, spans) == KeptSpans(t2, s, spans)
    decreases |spans|
  {
    if spans != [] {
      KeptSpansByLength(t1, t2, s, spans[1..]);
      KeptByLength(t1, t2, s, spans[0]);
      KeptSpansCons(t1, s, spans);
      KeptSpansCons(t2, s, spans);
    }
  }

  lemma KeptByLength(t1: TagPair, t2: TagPair, s: string, x: Span)
    requires |t1.start| == |t2.start| && |t1.end| == |t2.end|
    ensures Kept(t1, s, x) == Kept(t2, s, x)
  {
    if x.lo + |t1.start| + |t1.end| <= x.hi <= |s| {
      assert Body(t1, s, x) == Body(t2, s, x);
    }
  }

  /** One step of `KeptSpans`. */
  lemma KeptSpansCons(t: TagPair, s: string, spans: seq<Span>)
    requires spans != []
    ensures KeptSpans(t, s, spans) == (if Kept(t, s, spans[0]) then [spans[0]] else []) + KeptSpans(t, s, spans[1..])
  {
  }

  /** The regions of a pair are exactly its `re.finditer` matches whose body
      is not blank. */
  lemma PairRegionsAreKeptMatches(t: TagPair, s: string, ci: bool, x: Span)
    requires ValidTag(t)
    ensures x in PairRegions(t, s, ci) <==> x in FindAll(PatternOf(t, ci), s, 0) && Kept(t, s, x)
  {
    TagScanIsFindAll(t, s, 0, ci);
  }

  /** `<thought>` and `<Thought>` (entries 4 and 5 of the default table)
      match the same regions ignoring case, so every region detected for one
      is detected for the other: one region yields two blocks. */
  lemma ThoughtDetectedTwice(s: string, x: Span)
    ensures var table := DefaultTags();
            Found(4, x) in Locate(table, s, true, 0) <==> Found(5, x) in Locate(table, s, true, 0)
  {
    var table := DefaultTags();
    FoldEqualScan(table[4], table[5], s, 0);
    KeptSpansByLength(table[4], table[5], s, TagScan(table[4], s, 0, true));
    SameRegionsLocated(table, s, true, 4, 5, x);
  }

  /** Two pairs of a table with the same kept regions have the same regions
      located. */
  lemma SameRegionsLocated(table: seq<TagPair>, s: string, ci: bool, a: nat, b: nat, x: Span)
    requires ValidTable(table) && a < |table| && b < |table|
    requires PairRegions(table[a], s, ci) == PairRegions(table[b], s, ci)
    ensures Found(a, x) in Locate(table, s, ci, 0) <==> Found(b, x) in Locate(table, s, ci, 0)
  {
    LocateMembers(table, s, ci, 0);
  }

  /** A text with no end tag anywhere yields no region, even when it holds
      start tags. */
  lemma UnclosedNoMatch(t: TagPair, s: string, from: nat, ci: bool)
    requires ValidTag(t)
    requires forall k :: !LitAt(s, k, t.end, ci)
    ensures TagScan(t, s, from, ci) == []
  {
    var fi := FirstAt(s, from, t.start, ci);
    if fi.Some? {
      FirstAtSpec(s, fi.value + |t.start|, t.end, ci);
    }
  }

  /** A literal that has a character the text lacks does not occur in it. */
  lemma MissingChar(s: string, lit: string, j: nat)
    requires j < |lit| && lit[j] !in s
    ensures forall i: nat :: !LitAt(s, i, lit, false)
  {
    forall i: nat ensures !LitAt(s, i, lit, false) {
      LitAtIff(s, i, lit, false);
    }
  }

  /** `body` followed by the end tag holds no earlier end tag. */
  predicate EndsOnce(t: TagPair, body: string, ci: bool) {
    forall k :: 0 <= k < |body| ==> !LitAt(body + t.end, k, t.end, ci)
  }

  /** A text that holds the start tag at `a`, then `body` and the end tag,
      where `body` holds no end tag and no start tag occurs before `a` or
      after the section, yields exactly one region, spanning the section,
      whose body is `body`. */
  lemma OneRegion(t: TagPair, s: string, a: nat, body: string, ci: bool)
    requires ValidTag(t) && EndsOnce(t, body, ci)
    requires a + |t.start| + |body| + |t.end| <= |s|
    requires s[a..a + |t.start|] == t.start
    requires s[a + |t.start|..a + |t.start| + |body| + |t.end|] == body + t.end
    requires forall k: nat :: k < a ==> !LitAt(s, k, t.start, ci)
    requires forall k: nat :: a + |t.start| + |body| + |t.end| <= k ==> !LitAt(s, k, t.start, ci)
    ensures var e := a + |t.start| + |body| + |t.end|;
            TagScan(t, s, 0, ci) == [Span(a, e)] && Body(t, s, Span(a, e)) == body
  {
    var b := a + |t.start|;
    StartFound(s, a, t.start, ci);
    EndFound(s, b, body, t, ci);
    OnlyRegion(t, s, a, b, b + |body|, ci);
    BodyIs(t, s, a, body);
  }

  /** A region with no start tag after it is the only region. */
  lemma OnlyRegion(t: TagPair, s: string, a: nat, b: nat, j: nat, ci: bool)
    requires ValidTag(t) && b == a + |t.start|
    requires FirstAt(s, 0, t.start, ci) == Some(a)
    requires FirstAt(s, b, t.end, ci) == Some(j)
    requires forall k: nat :: j + |t.end| <= k ==> !LitAt(s, k, t.start, ci)
    ensures TagScan(t, s, 0, ci) == [Span(a, j + |t.end|)]
  {
    ClosedScan(t, s, 0, ci, a, j);
    NoStartAfter(t, s, j + |t.end|, ci);
    assert [Span(a, j + |t.end|)] + [] == [Span(a, j + |t.end|)];
  }

  /** With no start tag at or after `from`, the scan from there records nothing. */
  lemma NoStartAfter(t: TagPair, s: string, from: nat, ci: bool)
    requires |t.start| + |t.end| > 0
    requires forall k: nat :: from <= k ==> !LitAt(s, k, t.start, ci)
    ensures TagScan(t, s, from, ci) == []
  {
    FirstAtSpec(s, from, t.start, ci);
    if FirstAt(s, from, t.start, ci).Some? {
      assert false;
    }
  }

  /** Where `lit` is at `a` and nowhere before, the first occurrence is at `a`. */
  lemma StartFound(s: string, a: nat, lit: string, ci: bool)
    requires a + |lit| <= |s| && s[a..a + |lit|] == lit
    requires forall k: nat :: k < a ==> !LitAt(s, k, lit, ci)
    ensures FirstAt(s, 0, lit, ci) == Some(a)
  {
    LitAtSelf(lit, ci);
    LitAtSlice(s, a, a + |lit|, 0, lit, ci);
    FirstAtIs(s, 0, lit, ci, a);
  }

  lemma BodyIs(t: TagPair, s: string, a: nat, body: string)
    requires a + |t.start| + |body| + |t.end| <= |s|
    requires s[a + |t.start|..a + |t.start| + |body| + |t.end|] == body + t.end
    ensures Body(t, s, Span(a, a + |t.start| + |body| + |t.end|)) == body
  {
    var b := a + |t.start|;
    var c := b + |body| + |t.end|;
    forall k | 0 <= k < |body| ensures s[b..b + |body|][k] == body[k] {
      assert s[b..b + |body|][k] == s[b + k] == s[b..c][k];
      assert (body + t.end)[k] == body[k];
    }
    assert s[b..b + |body|] == body;
  }

  /** Where the text from `b` on reads `body` and then the end tag, and
      `body` holds no end tag, the first end tag from `b` closes `body`. */
  lemma EndFound(s: string, b: nat, body: string, t: TagPair, ci: bool)
    requires b + |body| + |t.end| <= |s| && s[b..b + |body| + |t.end|] == body + t.end
    requires EndsOnce(t, body, ci)
    ensures FirstAt(s, b, t.end, ci) == Some(b + |body|)
  {
    var c := b + |body| + |t.end|;
    LitAtSelf(t.end, ci);
    LitAtShift(body, t.end, 0, t.end, ci);
    LitAtSlice(s, b, c, |body|, t.end, ci);
    forall k | b <= k < b + |body| ensures !LitAt(s, k, t.end, ci) {
      LitAtSlice(s, b, c, k - b, t.end, ci);
    }
    FirstAtIs(s, b, t.end, ci, b + |body|);
  }

  /** No character of `body` can begin the end tag, so the body holds none. */
  lemma EndsOnceByFirstChar(t: TagPair, body: string, ci: bool)
    requires ValidTag(t)
    requires forall k :: 0 <= k < |body| ==> !SameChar(body[k], t.end[0], ci)
    ensures EndsOnce(t, body, ci)
  {
    forall k | 0 <= k < |body| ensures !LitAt(body + t.end, k, t.end, ci) {
      assert (body + t.end)[k] == body[k];
      assert !SameChar((body + t.end)[k + 0], t.end[0], ci);
    }
  }

  const Thinking := TagPair("<thinking>", "</thinking>")

  /** A text whose only region has a blank body yields no block. */
  lemma BlankRegionNoBlock(t: TagPair, s: string, a: nat, body: string, ci: bool)
    requires ValidTag(t) && EndsOnce(t, body, ci) && AllSpace(body)
    requires a + |t.start| + |body| + |t.end| <= |s|
    requires s[a..a + |t.start|] == t.start
    requires s[a + |t.start|..a + |t.start| + |body| + |t.end|] == body + t.end
    requires forall k: nat :: k < a ==> !LitAt(s, k, t.start, ci)
    requires forall k: nat :: a + |t.start| + |body| + |t.end| <= k ==> !LitAt(s, k, t.start, ci)
    ensures DetectWith([t], s, ci) == []
  {
    OneRegion(t, s, a, body, ci);
    BlankOnlyRegion(t, s, ci, Span(a, a + |t.start| + |body| + |t.end|), body);
  }

  /** A text whose one region has a blank body yields no block. */
  lemma BlankOnlyRegion(t: TagPair, s: string, ci: bool, sp: Span, body: string)
    requires ValidTag(t) && TagScan(t, s, 0, ci) == [sp] && AllSpace(body)
    requires sp.lo + |t.start| + |t.end| <= sp.hi <= |s| && Body(t, s, sp) == body
    ensures DetectWith([t], s, ci) == []
  {
    NoKeptRegion(t, s, ci, sp);
    LocateSingle(t, s, ci);
  }

  /** With a one-pair table, the located regions are that pair's regions. */
  lemma LocateSingle(t: TagPair, s: string, ci: bool)
    requires ValidTag(t)
    ensures |Locate([t], s, ci, 0)| == |PairRegions(t, s, ci)|
  {
    assert Locate([t], s, ci, 1) == [];
  }

  /** A pair whose only region has a blank body has no regions that become blocks. */
  lemma NoKeptRegion(t: TagPair, s: string, ci: bool, sp: Span)
    requires ValidTag(t) && TagScan(t, s, 0, ci) == [sp]
    requires sp.lo + |t.start| + |t.end| <= sp.hi <= |s| && AllSpace(Body(t, s, sp))
    ensures PairRegions(t, s, ci) == []
  {
    assert Strip(Body(t, s, sp)) == [];
    assert !Kept(t, s, sp);
    assert [sp][1..] == [];
    assert KeptSpans(t, s, []) == [];
    assert KeptSpans(t, s, [sp]) == [];
  }

  /** `<thinking></thinking>` matched with case gives one region whose
      body is empty. */
  lemma EmptySectionCase(s: string)
    requires s == "<thinking></thinking>"
    ensures TagScan(Thinking, s, 0, false) == [Span(0, 21)] && Body(Thinking, s, Span(0, 21)) == ""
  {
    assert s[0..10] == Thinking.start;
    assert s[10..21] == "" + Thinking.end;
    OneRegion(Thinking, s, 0, "", false);
  }

  /** A section holding only whitespace, such as `<thinking>   \n   </thinking>`,
      gives one region whose body strips to nothing, so it becomes no block. */
  lemma BlankSectionCase(ws: string)
    requires AllSpace(ws)
    ensures var s := Thinking.start + ws + Thinking.end;
            && TagScan(Thinking, s, 0, false) == [Span(0, |s|)]
            && Body(Thinking, s, Span(0, |s|)) == ws && Strip(ws) == ""
            && DetectWith([Thinking], s, false) == []
  {
    forall k | 0 <= k < |ws| ensures !SameChar(ws[k], Thinking.end[0], false) {
      assert IsSpace(ws[k]);
    }
    EndsOnceByFirstChar(Thinking, ws, false);
    BlankSection(Thinking, ws, false);
  }

  /** A text that is exactly one section, with a blank body holding no end
      tag, is one region and becomes no block. */
  lemma BlankSection(t: TagPair, ws: string, ci: bool)
    requires ValidTag(t) && EndsOnce(t, ws, ci) && AllSpace(ws)
    ensures var s := t.start + ws + t.end;
            && TagScan(t, s, 0, ci) == [Span(0, |s|)]
            && Body(t, s, Span(0, |s|)) == ws
            && DetectWith([t], s, ci) == []
  {
    var s := t.start + ws + t.end;
    SectionRegion(t, ws, ci);
    NoKeptRegion(t, s, ci, Span(0, |s|));
    LocateSingle(t, s, ci);
  }

  /** A text that is exactly one section, whose body holds no end tag, is one
      region spanning the whole text. */
  lemma SectionRegion(t: TagPair, body: string, ci: bool)
    requires ValidTag(t) && EndsOnce(t, body, ci)
    ensures var s := t.start + body + t.end;
            TagScan(t, s, 0, ci) == [Span(0, |s|)] && Body(t, s, Span(0, |s|)) == body
  {
    var s := t.start + body + t.end;
    var n := |t.start|;
    assert s[0..n] == t.start;
    assert s[n..n + |body| + |t.end|] == body + t.end;
    forall k: nat | |s| <= k ensures !LitAt(s, k, t.start, ci) {
      LitAtLength(s, k, t.start, ci);
    }
    OneRegion(t, s, 0, body, ci);
  }

  /** A text without `/`, such as `<thinking>Content without closing tag`,
      holds no end tag, so a start tag in it opens no region. */
  lemma UnclosedCase(s: string)
    requires '/' !in s
    ensures TagScan(Thinking, s, 0, false) == []
  {
    assert Thinking.end[1] == '/';
    MissingChar(s, Thinking.end, 1);
    UnclosedNoMatch(Thinking, s, 0, false);
  }
}

=== FILE: text.dfy ===
/** Character classes and whole-string helpers that Python's `str` methods
    and the `re` module use in the reasoning-tag pipeline: whitespace as
    `str.isspace` sees it, line boundaries as `str.splitlines` sees them,
    ASCII case folding for `re.IGNORECASE`, literal occurrence search and
    `str.strip`.
 */
module Text {

  datatype Option<+T> = None | Some(value: T)

  /** `str.isspace()` for one character (also what `\s` matches in a `str` pattern). */
  predicate IsSpace(c: char) {
    || c == ' '
    || ('\t' <= c <= '\r')
    || ('\U{1C}' <= c <= '\U{1F}')
    || c == '\U{85}' || c == '\U{A0}' || c == '\U{1680}'
    || ('\U{2000}' <= c <= '\U{200A}')
    || c == '\U{2028}' || c == '\U{2029}' || c == '\U{202F}' || c == '\U{205F}' || c == '\U{3000}'
  }

  /** The line boundaries `str.splitlines()` splits on (`\r\n` is handled by the splitter). */
  predicate IsLineBreak(c: char) {
    || c == '\n' || c == '\r' || c == '\U{0B}' || c == '\U{0C}'
    || ('\U{1C}' <= c <= '\U{1E}')
    || c == '\U{85}' || c == '\U{2028}' || c == '\U{2029}'
  }

  predicate AllSpace(s: string) {
    forall k :: 0 <= k < |s| ==> IsSpace(s[k])
  }

  /** ASCII lower-casing: the part of `re.IGNORECASE` this model keeps. */
  function Fold(c: char): char {
    if 'A' <= c <= 'Z' then (c as int + 32) as char else c
  }

  /** Whether two characters match, case-insensitively when `ci` is set. */
  predicate SameChar(a: char, b: char, ci: bool) {
    if ci then Fold(a) == Fold(b) else a == b
  }

  /** `lit` occurs in `s` starting at index `i`. */
  predicate LitAt(s: string, i: nat, lit: string, ci: bool)
    decreases |lit|
  {
    if lit == [] then i <= |s|
    else i + |lit| <= |s| && SameChar(s[i], lit[0], ci) && LitAt(s, i + 1, lit[1..], ci)
  }

  /** `LitAt`, character by character. */
  lemma {:induction false} LitAtIff(s: string, i: nat, lit: string, ci: bool)
    ensures LitAt(s, i, lit, ci) <==> i + |lit| <= |s| && forall k :: 0 <= k < |lit| ==> SameChar(s[i + k], lit[k], ci)
    decreases |lit|
  {
    if lit != [] {
      LitAtIff(s, i + 1, lit[1..], ci);
      if LitAt(s, i, lit, ci) {
        forall k | 0 <= k < |lit| ensures SameChar(s[i + k], lit[k], ci) {
          if k > 0 {
            assert lit[1..][k - 1] == lit[k];
          }
        }
      }
      if i + |lit| <= |s| && forall k :: 0 <= k < |lit| ==> SameChar(s[i + k], lit[k], ci) {
        assert SameChar(s[i + 0], lit[0], ci);
        forall k | 0 <= k < |lit[1..]| ensures SameChar(s[i + 1 + k], lit[1..][k], ci) {
          assert SameChar(s[i + (k + 1)], lit[k + 1], ci);
        }
      }
    }
  }

  /** An occurrence inside a slice is an occurrence in the whole text, shifted. */
  lemma {:induction false} LitAtSlice(s: string, lo: nat, hi: nat, i: nat, lit: string, ci: bool)
    requires lo <= hi <= |s|
    ensures LitAt(s[lo..hi], i, lit, ci) <==> lo + i + |lit| <= hi && LitAt(s, lo + i, lit, ci)
    decreases |lit|
  {
    if lit != [] {
      LitAtSlice(s, lo, hi, i + 1, lit[1..], ci);
      if lo + i < hi {
        assert s[lo..hi][i] == s[lo + i];
      }
    }
  }

  /** A slice of a slice is a slice of the whole text. */
  lemma SliceOfSlice(s: string, lo: nat, hi: nat, a: nat, b: nat)
    requires lo <= hi <= |s| && a <= b <= hi - lo
    ensures s[lo..hi][a..b] == s[lo + a..lo + b]
  {
    forall k | 0 <= k < b - a ensures s[lo..hi][a..b][k] == s[lo + a..lo + b][k] {
      assert s[lo..hi][a + k] == s[lo + a + k];
    }
  }

  /** An occurrence in the second part of `x + y`, shifted by `|x|`. */
  lemma {:induction false} LitAtShift(x: string, y: string, i: nat, lit: string, ci: bool)
    ensures LitAt(x + y, |x| + i, lit, ci) == LitAt(y, i, lit, ci)
    decreases |lit|
  {
    if lit != [] {
      LitAtShift(x, y, i + 1, lit[1..], ci);
      if i < |y| {
        assert (x + y)[|x| + i] == y[i];
      }
    }
  }

  /** An occurrence that ends inside `x` is an occurrence in `x + y`. */
  lemma {:induction false} LitAtPrefix(x: string, y: string, i: nat, lit: string, ci: bool)
    requires i + |lit| <= |x|
    ensures LitAt(x + y, i, lit, ci) == LitAt(x, i, lit, ci)
    decreases |lit|
  {
    if lit != [] {
      LitAtPrefix(x, y, i + 1, lit[1..], ci);
      assert (x + y)[i] == x[i];
    }
  }

  /** Every slice occurs in its text where it was cut. */
  lemma {:induction false} SliceAt(s: string, lo: nat, hi: nat, ci: bool)
    requires lo <= hi <= |s|
    ensures LitAt(s, lo, s[lo..hi], ci)
    decreases hi - lo
  {
    if lo < hi {
      SliceAt(s, lo + 1, hi, ci);
      assert s[lo..hi][1..] == s[lo + 1..hi];
    }
  }

  /** Every literal occurs in itself. */
  lemma LitAtSelf(lit: string, ci: bool)
    ensures LitAt(lit, 0, lit, ci)
  {
    SliceAt(lit, 0, |lit|, ci);
    assert lit[0..|lit|] == lit;
  }

  /** Every slice occurs in its text where it was cut, case-sensitively. */
  lemma SliceOccurs(s: string, lo: nat, hi: nat)
    requires lo <= hi <= |s|
    ensures LitAt(s, lo, s[lo..hi], false)
  {
    SliceAt(s, lo, hi, false);
  }

  /** Matched case-sensitively, an occurrence is the literal itself. */
  lemma {:induction false} ExactLitAt(s: string, i: nat, lit: string)
    requires LitAt(s, i, lit, false)
    ensures s[i..i + |lit|] == lit
    decreases |lit|
  {
    if lit != [] {
      ExactLitAt(s, i + 1, lit[1..]);
      assert s[i..i + |lit|] == [s[i]] + s[i + 1..i + |lit|];
      assert lit == [lit[0]] + lit[1..];
    }
  }

  /** Two literals that match exactly the same texts under ASCII folding. */
  predicate FoldEqual(a: string, b: string) {
    |a| == |b| && forall k :: 0 <= k < |a| ==> Fold(a[k]) == Fold(b[k])
  }

  /** The first index at or after `from` where `lit` occurs (Python's `str.find`
      with a start offset, or the search a non-greedy `.*?lit` performs). */
  function FirstAt(s: string, from: nat, lit: string, ci: bool): (r: Option<nat>)
    ensures r.Some? ==> from <= r.value && r.value + |lit| <= |s|
    decreases |s| - from
  {
    if from + |lit| > |s| then None
    else if LitAt(s, from, lit, ci) then Some(from)
    else FirstAt(s, from + 1, lit, ci)
  }

  /** What `FirstAt` finds: an occurrence with none before it, or, when it
      finds nothing, no occurrence at or after `from`. */
  lemma {:induction false} FirstAtSpec(s: string, from: nat, lit: string, ci: bool)
    ensures var r := FirstAt(s, from, lit, ci);
            && (r.Some? ==> LitAt(s, r.value, lit, ci))
            && (r.Some? ==> forall k :: from <= k < r.value ==> !LitAt(s, k, lit, ci))
            && (r.None? ==> forall k :: from <= k ==> !LitAt(s, k, lit, ci))
    decreases |s| - from
  {
    if from + |lit| > |s| {
      forall k | from <= k ensures !LitAt(s, k, lit, ci) {
        LitAtLength(s, k, lit, ci);
      }
    } else if !LitAt(s, from, lit, ci) {
      FirstAtSpec(s, from + 1, lit, ci);
    }
  }

  /** An occurrence fits in the text. */
  lemma LitAtLength(s: string, i: nat, lit: string, ci: bool)
    ensures LitAt(s, i, lit, ci) ==> i + |lit| <= |s|
  {
  }

  /** `FirstAt` finds an occurrence with none before it. */
  lemma {:induction false} FirstAtIs(s: string, from: nat, lit: string, ci: bool, i: nat)
    requires from <= i && LitAt(s, i, lit, ci)
    requires forall k :: from <= k < i ==> !LitAt(s, k, lit, ci)
    ensures FirstAt(s, from, lit, ci) == Some(i)
    decreases i - from
  {
    if from < i {
      FirstAtIs(s, from + 1, lit, ci, i);
    }
  }

  /** The end of the run of whitespace that starts at `i`. */
  function SpaceRunEnd(s: string, i: nat): (r: nat)
    requires i <= |s|
    ensures i <= r <= |s|
    decreases |s| - i
  {
    if i < |s| && IsSpace(s[i]) then SpaceRunEnd(s, i + 1) else i
  }

  /** The run is whitespace throughout and stops before a non-space character. */
  lemma {:induction false} SpaceRunEndSpec(s: string, i: nat)
    requires i <= |s|
    ensures var r := SpaceRunEnd(s, i);
            AllSpace(s[i..r]) && (r < |s| ==> !IsSpace(s[r]))
    decreases |s| - i
  {
    if i < |s| && IsSpace(s[i]) {
      var r := SpaceRunEnd(s, i + 1);
      SpaceRunEndSpec(s, i + 1);
      assert s[i..r] == [s[i]] + s[i + 1..r];
    }
  }

  /** The characters of `s` that are not whitespace, in order. */
  function NonSpace(s: string): string {
    if s == [] then []
    else (if IsSpace(s[0]) then [] else [s[0]]) + NonSpace(s[1..])
  }

  lemma {:induction false} NonSpaceAppend(a: string, b: string)
    ensures NonSpace(a + b) == NonSpace(a) + NonSpace(b)
  {
    if a == [] {
      assert a + b == b;
    } else {
      assert (a + b)[1..] == a[1..] + b;
      NonSpaceAppend(a[1..], b);
    }
  }

  lemma {:induction false} NonSpaceOfSpace(s: string)
    requires AllSpace(s)
    ensures NonSpace(s) == []
  {
    if s != [] {
      NonSpaceOfSpace(s[1..]);
    }
  }

  /** The start of the run of whitespace that ends at `j`. */
  function SpaceRunStart(s: string, j: nat): (r: nat)
    requires j <= |s|
    ensures r <= j
  {
    if j > 0 && IsSpace(s[j - 1]) then SpaceRunStart(s, j - 1) else j
  }

  /** The run is whitespace throughout and starts after a non-space character. */
  lemma {:induction false} SpaceRunStartSpec(s: string, j: nat)
    requires j <= |s|
    ensures var r := SpaceRunStart(s, j);
            AllSpace(s[r..j]) && (r > 0 ==> !IsSpace(s[r - 1]))
  {
    if j > 0 && IsSpace(s[j - 1]) {
      var r := SpaceRunStart(s, j - 1);
      SpaceRunStartSpec(s, j - 1);
      assert s[r..j] == s[r..j - 1] + [s[j - 1]];
    }
  }

  /** A whitespace run continues through any whitespace block it meets. */
  lemma {:induction false} SpaceRunSkip(s: string, i: nat, j: nat)
    requires i <= j <= |s| && AllSpace(s[i..j])
    ensures SpaceRunEnd(s, i) == SpaceRunEnd(s, j)
    decreases j - i
  {
    if i < j {
      assert s[i..j][0] == s[i];
      assert s[i + 1..j] == s[i..j][1..];
      SpaceRunSkip(s, i + 1, j);
    }
  }

  lemma {:induction false} SpaceRunStartSkip(s: string, i: nat, j: nat)
    requires i <= j <= |s| && AllSpace(s[i..j])
    ensures SpaceRunStart(s, j) == SpaceRunStart(s, i)
    decreases j - i
  {
    if i < j {
      assert s[i..j][j - 1 - i] == s[j - 1];
      assert s[i..j - 1] == s[i..j][..j - 1 - i];
      SpaceRunStartSkip(s, i, j - 1);
    }
  }

  lemma AllSpaceAppend(a: string, b: string)
    requires AllSpace(a) && AllSpace(b)
    ensures AllSpace(a + b)
  {
    forall k | 0 <= k < |a + b| ensures IsSpace((a + b)[k]) {
      if k >= |a| {
        assert (a + b)[k] == b[k - |a|];
      }
    }
  }

  /** Python's `str.strip()` with no argument. */
  function Strip(s: string): (r: string)
    ensures r == [] || (!IsSpace(r[0]) && !IsSpace(r[|r| - 1]))
    ensures r == [] <==> AllSpace(s)
  {
    var a := SpaceRunEnd(s, 0);
    var t := s[a..];
    var b := SpaceRunStart(t, |t|);
    SpaceRunEndSpec(s, 0);
    SpaceRunStartSpec(t, |t|);
    assert t[b..] == t[b..|t|];
    assert s[..a] == s[0..a];
    assert AllSpace(s) ==> a == |s| by {
      if AllSpace(s) {
        assert s[0..|s|] == s;
        SpaceRunSkip(s, 0, |s|);
      }
    }
    assert b == 0 ==> AllSpace(s) by {
      if b == 0 {
        assert t == t[0..|t|];
        assert s == s[0..a] + t;
        AllSpaceAppend(s[0..a], t);
      }
    }
    assert b > 0 ==> t[..b][0] == t[0];
    t[..b]
  }

  /** `Strip` removes exactly the outer whitespace: whenever `s` is a block
      of whitespace, a text that neither starts nor ends with whitespace,
      and another block of whitespace, `Strip` returns that middle text. */
  lemma StripUnique(a: string, m: string, b: string)
    requires AllSpace(a) && AllSpace(b)
    requires m == [] || (!IsSpace(m[0]) && !IsSpace(m[|m| - 1]))
    ensures Strip(a + m + b) == m
  {
    var s := a + m + b;
    assert s[0..|a|] == a;
    SpaceRunSkip(s, 0, |a|);
    if m == [] {
      assert s[|a|..|s|] == b;
      SpaceRunSkip(s, |a|, |s|);
      assert Strip(s) == [];
    } else {
      assert s[|a|] == m[0];
      var t := s[|a|..];
      assert t == m + b;
      assert t[|m|..|t|] == b;
      SpaceRunStartSkip(t, |m|, |t|);
      assert t[|m| - 1] == m[|m| - 1];
      assert t[..|m|] == m;
    }
  }

  /** `str.strip()` only removes whitespace: the other characters stay, in order. */
  lemma StripKeepsNonSpace(s: string)
    ensures NonSpace(Strip(s)) == NonSpace(s)
  {
    var a := SpaceRunEnd(s, 0);
    var t := s[a..];
    var b := SpaceRunStart(t, |t|);
    SpaceRunEndSpec(s, 0);
    SpaceRunStartSpec(t, |t|);
    assert s[0..a] == s[..a] && t[b..|t|] == t[b..];
    assert s == s[..a] + t[..b] + t[b..];
    NonSpaceTrimmed(s[..a], t[..b], t[b..]);
    StripCut(s);
  }

  /** Where `Strip` cuts: after the leading run, before the trailing one. */
  lemma StripCut(s: string)
    ensures var t := s[SpaceRunEnd(s, 0)..];
            Strip(s) == t[..SpaceRunStart(t, |t|)]
  {
  }

  /** Whitespace around a text adds nothing to its non-whitespace characters. */
  lemma NonSpaceTrimmed(x: string, m: string, y: string)
    requires AllSpace(x) && AllSpace(y)
    ensures NonSpace(x + m + y) == NonSpace(m)
  {
    NonSpaceAppend(x + m, y);
    NonSpaceAppend(x, m);
    NonSpaceOfSpace(x);
    NonSpaceOfSpace(y);
  }

  /** Searching in the second part of `x + y` finds what searching `y` finds, shifted. */
  lemma {:induction false} FirstAtShift(x: string, y: string, i: nat, lit: string, ci: bool)
    ensures FirstAt(x + y, |x| + i, lit, ci) == Shift(|x|, FirstAt(y, i, lit, ci))
    decreases |y| - i
  {
    LitAtShift(x, y, i, lit, ci);
    if i + |lit| <= |y| && !LitAt(y, i, lit, ci) {
      FirstAtShift(x, y, i + 1, lit, ci);
    }
  }

  /** A position found in `y`, moved `d` places right. */
  function Shift(d: nat, r: Option<nat>): Option<nat> {
    match r
    case None => None
    case Some(j) => Some(d + j)
  }

  /** An occurrence found inside `y` is still the first one in `y + z`. */
  lemma FirstAtPrefix(y: string, z: string, i: nat, lit: string, ci: bool)
    requires FirstAt(y, i, lit, ci).Some?
    ensures FirstAt(y + z, i, lit, ci) == FirstAt(y, i, lit, ci)
  {
    var j := FirstAt(y, i, lit, ci).value;
    FirstAtSpec(y, i, lit, ci);
    LitAtPrefix(y, z, j, lit, ci);
    forall k | i <= k < j ensures !LitAt(y + z, k, lit, ci) {
      LitAtPrefix(y, z, k, lit, ci);
    }
    FirstAtIs(y + z, i, lit, ci, j);
  }

  /** The whitespace run starting in the second part of `x + y`. */
  lemma {:induction false} SpaceRunShift(x: string, y: string, i: nat)
    requires i <= |y|
    ensures SpaceRunEnd(x + y, |x| + i) == |x| + SpaceRunEnd(y, i)
    decreases |y| - i
  {
    if i < |y| {
      assert (x + y)[|x| + i] == y[i];
      if IsSpace(y[i]) {
        SpaceRunShift(x, y, i + 1);
      }
    }
  }

  /** A whitespace run that ends inside `y` ends at the same place in `y + z`. */
  lemma {:induction false} SpaceRunPrefix(y: string, z: string, i: nat)
    requires i <= |y| && SpaceRunEnd(y, i) < |y|
    ensures SpaceRunEnd(y + z, i) == SpaceRunEnd(y, i)
    decreases |y| - i
  {
    assert (y + z)[i] == y[i];
    if IsSpace(y[i]) {
      SpaceRunPrefix(y, z, i + 1);
    }
  }
}
